=== FILE: README.md ===
# SimpleServer background tasks, modelled in Dafny

This project models the sequential core of SimpleServer's background
maintenance layer. SimpleServer is an administration wrapper around a
separately run game server. The core consists of:

- **AutoTask**: the generic recurring-task driver. It handles poll, force,
  pause and stop. As written, its loop never calls the task body: a due poll
  re-enters the loop until the stack overflows (see "## Findings"). The
  model keeps both that driver and the one that calls the body, clears the
  force flag and records the time of the last run.
- **AutoMap** and **AutoRun**: the two save-lock maintenance jobs. Each one
  acquires the server's save lock, announces itself, flushes and suspends
  saving, and runs an external command. It then announces the exit status,
  resumes saving and releases the lock. Both jobs share one cycle model,
  `Maintenance.RunCycle`.
- **PlayerTracker**: the periodic job that replaces the `player_tracker`
  table with one row per online player.
- **DatabaseConnection**: the lifecycle of a named holder of one JDBC
  connection and statement, as a state machine over two optional handles.
- **DatabaseConnectionManager**: the registry of connectors keyed by name,
  and the lookup of the connector named by `dbConnector`.
- **MySQLConnection**: validation of the MySQL configuration and choice of
  the JDBC URL.
- **AreaCommand**: the `area [on|off]` chat command, including the
  area-list text.

Every operation is a pure function. Threads, clocks, locks, processes and
JDBC become explicit inputs ("oracles"):
- the clock reading at each guard check and after each body;
- whether a lock acquisition was interrupted;
- whether the external command launched, the running flag seen at each
  interrupted `waitFor`, and the exit code;
- the driver's probe answers, close failures and statement results;
- the outcome of `getConnector()`.

Observable side effects are effect traces (`seq<Effect>`). The lemmas about
those traces state ordering, exactly-once release and exactly-once close.

Details of the code that the model keeps:
- Only a negative exit code is a failure. A nonzero, non-negative code is
  announced as completion.
- `AutoRun` and `PlayerTracker` use a strict `>` in their schedule tests.
  `AutoTask` uses `<=`.
- The tracker's truncate and inserts are not one atomic transaction. A failure
  after the truncate leaves the table partly written. The insert statement is
  prepared even when no player is online, and that preparation can fail.
- Only an `IOException` from `Runtime.exec` is caught. An unchecked exception
  (a null or empty command) still runs the `finally` block, then escapes the
  body and ends the thread that called it (the `AutoRun` runner, or an
  `AutoTask` driver that calls its body) with no announcement and no
  `errorLog` entry.
- `1000 * playerTrackerSecs` in `PlayerTracker.needsUpdate` is 32-bit `int`
  arithmetic. It is modelled with explicit wrap-around: `PlayerTracker.Int32`
  and `PlayerTracker.LongPeriodWraps`.
- `MySQLConnection` calls `super("mysql")` and overrides `newConnection`.
  `DatabaseConnection` declares neither that constructor nor that method. The
  connection state machine and the URL builder are therefore modelled
  independently. The registry is generic in the connector type, and the
  `Backends` module instantiates it with the MySQL backend.

## Model

| member | source | states |
|---|---|---|
| AutoTask.New | src/simpleserver/thread/AutoTask.java:41-55 | with `initialRun` the last run starts at 0, otherwise at the construction time; the new task is running, unpaused and not forced |
| AutoTask.ForceRun | src/simpleserver/thread/AutoTask.java:61-63 | sets the force flag and changes nothing else |
| AutoTask.SetPaused | src/simpleserver/thread/AutoTask.java:65-67 | sets the pause flag to the argument and changes nothing else |
| AutoTask.NeedsRun | src/simpleserver/thread/AutoTask.java:78-80 | due only when enabled, and then iff the clock has reached `nextRun()` (inclusive) |
| AutoTask.Stop | src/simpleserver/thread/AutoTask.java:69-76 | afterwards `isRunning()` is false; nothing else changes |
| AutoTask.Iterate | src/simpleserver/thread/AutoTask.java:91-98 | with the call meant as the task body (corrected half of the finding below): the body executes iff the task is not paused and (forced, or enabled with `nextRun() <= now`); after a body that returns, the force flag is clear and the last run is the post-body time; a body that throws ends the driver thread and leaves the task as it was; a poll that does not execute leaves the task unchanged; pause and running flags are never touched |
| AutoTask.IterateAsWritten | src/simpleserver/thread/AutoTask.java:91-98 | as written: a poll re-enters the loop iff it is not paused and is forced or due, and every such poll ends the driver thread with the task unchanged: force flag still set, last run not recorded |
| AutoTask.DueCallOverflows | src/simpleserver/thread/AutoTask.java:93 | with no request arriving meanwhile, every nested level of a due poll is due too, so the re-entrant call always ends in a stack overflow |
| AutoTask.RunTicks | src/simpleserver/thread/AutoTask.java:88-105 | over a sequence of polls the loop iterates at most once per poll and executes at most once per iteration; when the first poll's body throws, that poll is the only iteration and the only execution |
| AutoTask.ApplyAllRunning | src/simpleserver/thread/AutoTask.java:61-76 | after any sequence of force/pause/stop requests the task is running iff it was running and no stop was requested |
| AutoTask.StopEndsLoop | src/simpleserver/thread/AutoTask.java:73-91 | a stop requested before the k-th guard check leaves at most k iterations |
| AutoTask.StoppedNeverRuns | src/simpleserver/thread/AutoTask.java:73-91 | a stopped task performs no further iteration, whatever is requested of it |
| AutoTask.PausedNeverRuns | src/simpleserver/thread/AutoTask.java:92 | a paused task that is never unpaused executes its body zero times, even when forced |
| AutoTask.ForceRunExecutesOnce | src/simpleserver/thread/AutoTask.java:92-97 | corrected driver: a forced, running, unpaused task executes on the next poll whatever the schedule says; if the body returns, the force flag is then clear and a following poll that is not due does not execute; if it throws, the driver ends with the flag still set |
| AutoTask.ForcedPollAsWritten | src/simpleserver/thread/AutoTask.java:92-97 | as written a forced poll ends the driver thread with the force flag still set and the last run unchanged, while the corrected driver executes once and clears the flag |
| AutoTask.UnpauseResumes | src/simpleserver/thread/AutoTask.java:92 | a paused task does not execute; after unpausing, the next poll executes iff forced or due |
| Maintenance.Announce | src/simpleserver/thread/AutoMap.java:40-44 | a `say` of exactly that message is emitted iff the announce flag is set |
| Maintenance.AwaitExit | src/simpleserver/thread/AutoMap.java:84-93 | the wait loop emits only destroys, one per interruption that observed the task stopped |
| Maintenance.ResultMessage | src/simpleserver/thread/AutoMap.java:95-101 | a negative exit code selects the failure message, any other code the completion message |
| Maintenance.RunCycle | src/simpleserver/thread/AutoMap.java:47-67 | an interrupted lock acquisition yields no effects and keeps the last run; otherwise the last run becomes the time read after save-off; the cycle ends by an escaping exception iff the launch threw an unchecked one |
| Maintenance.LockReleasedExactlyOnce | src/simpleserver/thread/AutoMap.java:68-105 | after a successful acquire the cycle begins with the acquire and ends with save-on then release, each occurring exactly once, on the launch-failure, unchecked-exception and normal paths alike |
| Maintenance.CycleOrder | src/simpleserver/thread/AutoMap.java:54-71 | start announcement, save-all, wait while saving, save-off, recording the run time and the launch happen in that order, and save-on comes after the launch |
| Maintenance.LaunchFailureReported | src/simpleserver/thread/AutoMap.java:72-78 | a launch failure logs the error and never announces completion |
| Maintenance.LaunchFailureAnnouncedOnce | src/simpleserver/thread/AutoMap.java:72-78 | a launch failure announces "failed" exactly once when announcing, and not at all otherwise |
| Maintenance.CrashReleasesSilently | src/simpleserver/thread/AutoMap.java:68-105 | an unchecked launch exception runs only the `finally` block after the launch: the trace is the prologue, save-on and release, with no failure or completion announcement and no error-log entry |
| Maintenance.ExitCodeClassified | src/simpleserver/thread/AutoMap.java:95-101 | a negative exit code is announced as failure and never as completion; any other code, nonzero included, as completion and never as failure |
| Maintenance.ExitNotLogged | src/simpleserver/thread/AutoMap.java:95-101 | a process that ran is never reported through the error log, whatever its exit code |
| Maintenance.DestroyOnlyWhenStopped | src/simpleserver/thread/AutoRun.java:135-144 | the process is destroyed exactly once per interrupted wait that saw the run flag cleared, and never otherwise |
| Maintenance.SilentWithoutAnnounce | src/simpleserver/thread/AutoRun.java:88-92 | with announcements disabled the cycle emits no `say` at all |
| AutoMap.New | src/simpleserver/thread/AutoMap.java:31-33 | the task is named AutoMap, polls every 1000 ms and does not run initially: its last run is the construction time |
| AutoMap.NextRun | src/simpleserver/thread/AutoMap.java:36-38 | the next run is exactly `60000 * autoMapMins` ms after the last run, so never earlier for a non-negative interval |
| AutoMap.DisabledRunsOnlyWhenForced | src/simpleserver/thread/AutoMap.java:126-129 | with `autoMap` off the schedule never fires: only a forced poll runs the mapping, and an unforced poll changes nothing |
| AutoMap.NeedsRunIff | src/simpleserver/thread/AutoMap.java:36-38 | the task is due iff `autoMap` is set and at least `60000 * autoMapMins` ms passed since the last run |
| AutoMap.FirstRunAfterOneInterval | src/simpleserver/thread/AutoMap.java:31-38 | after construction the task becomes due exactly when a full interval has elapsed (never immediately when `autoMapMins > 0`) |
| AutoMap.Body | src/simpleserver/thread/AutoMap.java:47-105 | an interrupted acquire gives no effects; otherwise the mapping command is launched and save-on and the release each occur exactly once |
| AutoMap.Iterate | src/simpleserver/thread/AutoTask.java:91-98 | with the driver calling this task's body (corrected half of the finding below): a poll that is not due (paused, or neither forced nor enabled with a full interval elapsed) changes nothing and emits nothing; a due poll runs the maintenance body and, when the body returns, clears the force flag and records the post-body time; when the launch throws an unchecked exception the driver ends, the force flag stays set and the last run is the time the body recorded |
| AutoMap.IterateAsWritten | src/simpleserver/thread/AutoTask.java:91-98 | as written a poll never emits anything and never changes the task; it ends the driver thread iff it is due or forced |
| AutoMap.MappingNeverRunsAsWritten | src/simpleserver/thread/AutoTask.java:93 | a forced poll whose acquire succeeds launches the mapping command with the corrected driver, and emits nothing and ends the driver as written |
| AutoMap.InterruptedStillCounts | src/simpleserver/thread/AutoMap.java:47-52 | with the driver calling this body (corrected half of the finding below), on a poll that is due or forced an interrupted acquire aborts the body silently, yet the driver still records the poll as a run |
| AutoRun.New | src/simpleserver/thread/AutoRun.java:44-57 | the last run starts at the construction time and the runner is running |
| AutoRun.Stop | src/simpleserver/thread/AutoRun.java:59-62 | clears the run flag and keeps the last run |
| AutoRun.NeedsRun | src/simpleserver/thread/AutoRun.java:64-68 | due only when enabled, and then iff strictly more than `60000 * interval` ms have passed since the last run |
| AutoRun.StrictComparedToAutoTask | src/simpleserver/thread/AutoRun.java:64-68 | the job is due at time `now` iff the `AutoTask` rule with the same interval is due at `now - 1`: the strict test fires one millisecond later |
| AutoRun.NoRunBeforeInterval | src/simpleserver/thread/AutoRun.java:52 | no run fires before a full interval has elapsed since construction |
| AutoRun.Iterate | src/simpleserver/thread/AutoRun.java:96-163 | a poll that is not due changes nothing and sleeps; an interrupted acquire changes nothing and skips the sleep; otherwise the trace is the maintenance cycle's, the last run becomes the post-save-off time, the sleep happens iff the command launched, and the runner thread ends iff the launch threw an unchecked exception |
| AutoRun.LaunchFailureStillReleases | src/simpleserver/thread/AutoRun.java:116-156 | on the launch-failure `continue` path save-on and the release occur exactly once, the run counts, and the sleep is skipped |
| AutoRun.DueRunReleasesOnce | src/simpleserver/thread/AutoRun.java:98-156 | every pass that acquires the lock, whatever the launch outcome, starts with the acquire and ends with save-on then release, each exactly once |
| AutoRun.CrashEndsRunner | src/simpleserver/thread/AutoRun.java:119-156 | an unchecked launch exception ends the runner after save-on and a single release, with the last run already set, no "failed" announcement and no error-log entry |
| AutoRun.ExitAnnounced | src/simpleserver/thread/AutoRun.java:146-152 | a negative exit code gives the "failed" announcement only, any other code the "complete" announcement only |
| PlayerTracker.ClampY | src/simpleserver/thread/PlayerTracker.java:89-94 | the recorded height is 0 for a negative height and the height itself otherwise |
| PlayerTracker.NeverSkipped | src/simpleserver/thread/PlayerTracker.java:85-87 | the skip test (dimension equal to both EARTH and NETHER) never holds |
| PlayerTracker.RowOf | src/simpleserver/thread/PlayerTracker.java:96-102 | a row is name, group, dimension index, x, clamped y, z, hidden, in column order |
| PlayerTracker.OneRowPerPlayer | src/simpleserver/thread/PlayerTracker.java:84-105 | the insert loop yields exactly one row per player, the i-th row being the i-th player's |
| PlayerTracker.TruncateFirst | src/simpleserver/thread/PlayerTracker.java:79-82 | whenever a database step happens, the first effect is the truncate; an insert comes only after the insert statement's preparation, the second effect |
| PlayerTracker.ConnectionClosedOnce | src/simpleserver/thread/PlayerTracker.java:106-120 | an obtained connection is closed exactly once on every path; a failed lookup closes nothing and logs the error only |
| PlayerTracker.Cycle | src/simpleserver/thread/PlayerTracker.java:74-120 | a failed lookup logs only its own message; with a connection, the close always happens, the last effect is the close or, if it throws, its error; "Database update failed" is logged iff one of the `players + 2` database steps throws |
| PlayerTracker.CompleteCycle | src/simpleserver/thread/PlayerTracker.java:76-105 | without failures the cycle is the truncate, the insert preparation, one insert per player in list order, then the close |
| PlayerTracker.EmptyPlayerList | src/simpleserver/thread/PlayerTracker.java:79-84 | zero players give the truncate, the insert preparation, no insert, and the close |
| PlayerTracker.InsertPrepareFailure | src/simpleserver/thread/PlayerTracker.java:82 | with no player online, a failing insert preparation is logged as an update failure after the truncate, and the connection is still closed |
| PlayerTracker.Int32 | src/simpleserver/thread/PlayerTracker.java:58 | the result is in the 32-bit range and congruent to the input modulo 2^32 |
| PlayerTracker.NeedsUpdate | src/simpleserver/thread/PlayerTracker.java:57-60 | due only when enabled, and then iff the time since the last update strictly exceeds the 32-bit product `1000 * playerTrackerSecs` |
| PlayerTracker.NeedsUpdateIff | src/simpleserver/thread/PlayerTracker.java:57-60 | while `1000 * playerTrackerSecs` fits in an int, the tracker is due iff enabled and strictly more than the period has passed since the last update |
| PlayerTracker.LongPeriodWraps | src/simpleserver/thread/PlayerTracker.java:58 | a period of 2147484 seconds overflows to a negative product, so the tracker is due on every poll |
| PlayerTracker.New | src/simpleserver/thread/PlayerTracker.java:42-50 | the last update starts at 0 |
| PlayerTracker.Stop | src/simpleserver/thread/PlayerTracker.java:52-55 | clears the run flag and keeps the last update |
| PlayerTracker.Iterate | src/simpleserver/thread/PlayerTracker.java:71-123 | a poll that is not due changes nothing; a due poll emits exactly the update cycle's trace and sets the last update to the post-cycle time, whether the cycle succeeded or failed |
| PlayerTracker.DueUpdateClosesOnce | src/simpleserver/thread/PlayerTracker.java:72-122 | a due poll that obtained a connection closes it exactly once, last unless the close fails, and records the post-cycle time |
| DatabaseConnection.New | src/simpleserver/database/DatabaseConnection.java:35-43 | a new connector holds no handles and `getName()` answers the constructor's name |
| DatabaseConnection.NameIsFixed | src/simpleserver/database/DatabaseConnection.java:88-90 | `getName()` answers the constructor's name, and closing keeps it |
| DatabaseConnection.IsValid | src/simpleserver/database/DatabaseConnection.java:47-49 | valid iff both handles are present, the connection answers the probe for that timeout, and the statement is not closed |
| DatabaseConnection.IsValidDefault | src/simpleserver/database/DatabaseConnection.java:51-53 | `isValid()` is the probe with a 10-second timeout |
| DatabaseConnection.Close | src/simpleserver/database/DatabaseConnection.java:55-70 | both handles are null afterwards and the name is kept; at most two calls: the statement, first, is closed iff present, and the connection iff present and the statement close did not throw; the error rethrown is the statement's when it threw, else the connection's when it was closed, else none; a closed connector is left untouched without error |
| DatabaseConnection.Execute | src/simpleserver/database/DatabaseConnection.java:72-78 | without both handles it fails with "No open connection." and sends nothing; otherwise it sends the SQL and answers the statement's reply |
| DatabaseConnection.ExecuteQuery | src/simpleserver/database/DatabaseConnection.java:80-86 | without both handles it fails with "No open connection." and sends nothing; otherwise it sends the SQL and answers the statement's result set |
| DatabaseConnection.CloseIdempotent | src/simpleserver/database/DatabaseConnection.java:56-63 | closing an already closed connector makes no call and throws nothing |
| DatabaseConnection.ExecuteAfterCloseFails | src/simpleserver/database/DatabaseConnection.java:72-75 | after any close, even one that threw, statements fail without reaching the driver |
| DatabaseConnection.ValidExecutes | src/simpleserver/database/DatabaseConnection.java:47-77 | a connector that passes the validity probe delegates statements to the driver |
| DatabaseConnectionManager.ReloadConnectors | src/simpleserver/database/DatabaseConnectionManager.java:46-47 | every name in the rebuilt registry comes from the candidates: nothing of the previous map survives |
| DatabaseConnectionManager.ReloadSpec | src/simpleserver/database/DatabaseConnectionManager.java:52-69 | a name is registered iff some concrete, constructible candidate has it, and it maps to the last such candidate's connector |
| DatabaseConnectionManager.SkippedCandidate | src/simpleserver/database/DatabaseConnectionManager.java:53-66 | an abstract candidate or one whose construction throws changes nothing; later candidates register as if it were absent |
| DatabaseConnectionManager.GetConnector | src/simpleserver/database/DatabaseConnectionManager.java:72-86 | a missing `dbConnector` and an unknown name are configuration errors; otherwise the answer is that connector's `newConnection` |
| DatabaseConnectionManager.LookupAfterReload | src/simpleserver/database/DatabaseConnectionManager.java:79-85 | after a reload, the configured name opens a connection through the last candidate registering under it |
| DatabaseConnectionManager.UnsuppliedNameFails | src/simpleserver/database/DatabaseConnectionManager.java:79-83 | after a reload, a name that no candidate registers is a configuration error naming it |
| MySqlConnection.ConnectionUrl | src/simpleserver/database/MySQLConnection.java:38-57 | fails iff the database name is missing; a URL starts with `jdbc:mysql://`, the host (default localhost), `/` and the database name |
| MySqlConnection.NewConnection | src/simpleserver/database/MySQLConnection.java:35-58 | a missing driver fails first, whatever the configuration; a missing database name fails before any connection attempt; otherwise the chosen URL is what is connected to |
| MySqlConnection.UrlWithoutCredentials | src/simpleserver/database/MySQLConnection.java:51-52 | with neither user nor password the URL is `jdbc:mysql://HOST/DB` |
| MySqlConnection.UrlWithUserOnly | src/simpleserver/database/MySQLConnection.java:53-54 | with a user and no password the URL is `jdbc:mysql://HOST/DB?user=U` |
| MySqlConnection.UrlWithUserAndPassword | src/simpleserver/database/MySQLConnection.java:55-56 | with both the URL is `jdbc:mysql://HOST/DB?user=U&password=P` |
| MySqlConnection.UrlWithPasswordOnly | src/simpleserver/database/MySQLConnection.java:55-56 | with a password and no user the user renders as the literal `null` |
| MySqlConnection.QueryIffCredentials | src/simpleserver/database/MySQLConnection.java:51-57 | when host and database contain no `?`, the URL has a query string iff a user or a password is configured |
| Backends.MySqlSelected | src/simpleserver/database/MySQLConnection.java:29-32 | with the MySQL connector registered under "mysql", `dbConnector=mysql` yields MySQL's `newConnection` and any other name a configuration error |
| Backends.NothingRegisteredWhenConstructionFails | src/simpleserver/database/DatabaseConnectionManager.java:57-66 | if the only concrete connector fails to construct, the registry is empty |
| AreaCommand.AreaListIsJoinWithTrailingSpace | src/simpleserver/command/AreaCommand.java:44-52 | the listing is the area names in list order separated by ", ", with the last comma removed but its space kept |
| AreaCommand.Execute | src/simpleserver/command/AreaCommand.java:34-66 | exactly one reply; no argument lists the areas, or says "no areas" for a null or empty list; "on" and "off" set the flag and confirm in gray with "Area announcements enabled." or "...disabled."; any other single argument reports an invalid argument in red and keeps the flag; two or more print usage and change nothing |

## Findings

| source | as written | input that shows it | evidently intended | confidence | as-written member | corrected member |
|---|---|---|---|---|---|---|
| src/simpleserver/thread/AutoTask.java:93 | the unqualified `run();` inside `Task extends Thread` names `Task.run()`, the innermost enclosing class with a method of that name, so a due poll re-enters the driver loop until the stack overflows, and lines 95-97 are never reached | `forceRun()` on a running, unpaused task: the next poll ends the driver thread with the force flag still set | `AutoTask.this.run()`: execute the task body, then clear the force flag and record the run | high; not executed | AutoTask.ForcedPollAsWritten | AutoTask.ForceRunExecutesOnce |
| src/simpleserver/thread/AutoTask.java:93 | the same call: `AutoMap.run()` is never called from the driver, so scheduled and forced mapping never happens | a forced `AutoMap` poll whose lock acquisition would succeed: no effect at all instead of the mapping cycle | the driver runs the mapping cycle on every due poll | high; not executed | AutoMap.MappingNeverRunsAsWritten | AutoMap.Iterate |

## Left out

- Threads, `Thread.sleep`, `interrupt()` and the cross-thread visibility of the volatile flags. One loop iteration is modelled, with the clock and interruption outcomes as inputs. A force request that arrives while the body runs, and is then lost when the flag is cleared, is a concurrency effect and is not modelled.
- The `saveLock` semaphore across threads. Only acquire and release events inside one cycle are modelled.
- `Runtime.exec`, the `OutputConsumer` drain threads, `waitFor` and `destroy`. Launch success, interruptions and the exit code are inputs, and each wait is assumed to end with an exit code.
- The `isSaving()` busy-wait. It is one `AwaitSave` event, assumed to end.
- JDBC (`DriverManager`, `Connection`, `Statement`, `PreparedStatement`) and `Class.forName`. These are foreign calls; abstract handles and oracle answers stand in for them. A failure to prepare the truncate is merged with its execution; the insert statement's preparation is a separate step.
- `DatabaseConnection.open()`: it is abstract, so there is no behaviour to model. The `synchronized` mutual exclusion of `execute` and `executeQuery` is concurrency.
- DatabaseConnection.IsValid: does not model an `SQLException` thrown by the driver's `isValid` or `isClosed` probes, which the Java method propagates.
- The reflective subtype scan in `reloadConnectors`. An ordered candidate list (abstract flag and construction result) stands in for it, and `e.printStackTrace` and the console message are dropped.
- Translations `t(...)` are the identity. `System.out` output is dropped. `server.errorLog` is an `ErrorLog` or `LogError` event carrying its context message.
- Java `long` overflow in `lastRun + 60000 * minutes` and `now - 60000 * interval` is not modelled. Those values are unbounded integers. Only the 32-bit product in `PlayerTracker.needsUpdate` wraps.
- `AutoMap`'s own write of `lastRun` before the launch is not reached as written. With a driver that calls the body, it is overwritten after the body returns, and survives only when the launch throws an unchecked exception.
- `AbstractCommand.extractArguments`, `commandPrefix()`, the per-position area lookup and `Coordinate.Dimension` are not part of this model. They are inputs, and dimensions are identified by an index.
- `getConnector` has no enable switch and does not reuse or revalidate connections: each call opens a new one through the selected connector, so there is no connection cache to model.
- The chat commands `DatabaseCommand`, `MyAreaAdminCommand`, `PosCommand`, `KickCommand`, `TrackCommand` and `AreaOwnerCommand` are not modelled. They are glue over player, configuration and permission classes that are not part of this model.

=== FILE: area_command.dfy ===
/** `AreaCommand.execute`: with no argument, list the areas at the player's
    position; with one, switch area announcements on or off. The argument
    split, the area lookup and the command prefix are inputs. */
module AreaCommand {
  import opened Outcomes

  datatype Area = Area(name: string)

  datatype Color = Gray | Red

  /** A chat message sent to the player. */
  datatype Reply =
    | Message(color: Color, text: string)
    | Captioned(caption: string, text: string)

  datatype Outcome = Outcome(replies: seq<Reply>, announceArea: bool)

  const NoAreas: string := "You are currently in no areas"
  const Enabled: string := "Area announcements enabled."
  const Disabled: string := "Area announcements disabled."
  const InvalidArgument: string := "You entered an invalid argument."

  /** The names appended to the builder, each followed by ", ". */
  function Appended(areas: seq<Area>): (s: string)
    decreases |areas|
  {
    if |areas| == 0 then [] else areas[0].name + ", " + Appended(areas[1..])
  }

  /** The listing as built: `delete(length - 2, length - 1)` removes the final
      comma and keeps the space after it. */
  function AreaList(areas: seq<Area>): (s: string)
    requires |areas| > 0
  {
    var built := Appended(areas);
    AppendedEndsWithSeparator(areas);
    built[..|built| - 2] + built[|built| - 1..]
  }

  lemma {:induction false} AppendedEndsWithSeparator(areas: seq<Area>)
    requires |areas| > 0
    ensures var b := Appended(areas); |b| >= 2 && b[|b| - 2..] == ", "
    decreases |areas|
  {
    var rest := Appended(areas[1..]);
    if |areas| > 1 {
      AppendedEndsWithSeparator(areas[1..]);
    }
    var b := Appended(areas);
    assert b == (areas[0].name + ", ") + rest;
    assert b[|b| - 2..] == (if |areas| > 1 then rest[|rest| - 2..] else ", ");
  }

  /** Names separated by ", ": the reference definition of the listing. */
  function Join(areas: seq<Area>): string
    decreases |areas|
  {
    if |areas| == 0 then []
    else if |areas| == 1 then areas[0].name
    else areas[0].name + ", " + Join(areas[1..])
  }

  lemma {:induction false} AppendedIsJoinPlusSeparator(areas: seq<Area>)
    requires |areas| > 0
    ensures Appended(areas) == Join(areas) + ", "
    decreases |areas|
  {
    if |areas| == 1 {
      assert Appended(areas[1..]) == [];
    } else {
      AppendedIsJoinPlusSeparator(areas[1..]);
      assert Appended(areas) == areas[0].name + ", " + (Join(areas[1..]) + ", ");
    }
  }

  /** The listing is the names in list order separated by ", ", followed by
      the trailing space left over from the last separator. */
  lemma {:induction false} AreaListIsJoinWithTrailingSpace(areas: seq<Area>)
    requires |areas| > 0
    ensures AreaList(areas) == Join(areas) + " "
  {
    AppendedIsJoinPlusSeparator(areas);
    var j := Join(areas);
    var b := Appended(areas);
    assert b == j + ", ";
    assert b[..|b| - 2] == j;
    assert b[|b| - 1..] == " ";
  }

  /** `execute(player, message)`: `areas` is the area lookup's answer (`None` for `null`). */
  function Execute(args: seq<string>, areas: Option<seq<Area>>, announceArea: bool, prefix: string): (o: Outcome)
    ensures |o.replies| == 1
    ensures |args| != 1 ==> o.announceArea == announceArea
    ensures |args| == 1 && args[0] == "on" ==> o == Outcome([Message(Gray, Enabled)], true)
    ensures |args| == 1 && args[0] == "off" ==> o == Outcome([Message(Gray, Disabled)], false)
    ensures |args| == 1 && args[0] != "on" && args[0] != "off"
      ==> o == Outcome([Message(Red, InvalidArgument)], announceArea)
    ensures |args| >= 2 ==> o == Outcome([Captioned("Usage", prefix + "area [on|off]")], announceArea)
    ensures |args| == 0 && (areas.None? || areas.value == [])
      ==> o == Outcome([Message(Gray, NoAreas)], announceArea)
    ensures |args| == 0 && areas.Some? && areas.value != []
      ==> o == Outcome([Captioned("Current areas", Join(areas.value) + " ")], announceArea)
  {
    if |args| == 0 then
      if areas.None? || |areas.value| == 0 then Outcome([Message(Gray, NoAreas)], announceArea)
      else
        AreaListIsJoinWithTrailingSpace(areas.value);
        Outcome([Captioned("Current areas", AreaList(areas.value))], announceArea)
    else if |args| == 1 then
      if args[0] == "on" then Outcome([Message(Gray, Enabled)], true)
      else if args[0] == "off" then Outcome([Message(Gray, Disabled)], false)
      else Outcome([Message(Red, InvalidArgument)], announceArea)
    else Outcome([Captioned("Usage", prefix + "area [on|off]")], announceArea)
  }
}

=== FILE: auto_map.dfy ===
/** `AutoMap`: an `AutoTask` whose body runs the configured mapping command
    under the save lock every `autoMapMins` minutes. As written the driver
    never reaches that body (`IterateAsWritten`); `Iterate` and the lemmas
    about it describe the driver whose call does reach it. */
module AutoMap {
  import AutoTask
  import opened Traces
  import opened Maintenance

  /** The configuration keys the task reads. */
  datatype Config = Config(autoMap: bool, announceMap: bool, autoMapMins: int, autoMapCmd: string)

  const Name: string := "AutoMap"
  const PollInterval: int := 1000

  function New(now: int): (t: AutoTask.Task)
    ensures t.name == Name && t.interval == PollInterval
    ensures t.lastRun == now
    ensures t.running && !t.paused && !t.forceRun
  {
    AutoTask.New(Name, PollInterval, false, now)
  }

  predicate IsEnabled(cfg: Config) {
    cfg.autoMap
  }

  /** `nextRun()`: `autoMapMins` minutes after the last run. */
  function NextRun(lastRun: int, cfg: Config): (r: int)
    ensures r - lastRun == 60000 * cfg.autoMapMins
    ensures cfg.autoMapMins >= 0 ==> r >= lastRun
  {
    lastRun + AutoTask.MillisecondsPerMinute * cfg.autoMapMins
  }

  function MapJob(cfg: Config): (job: Job)
    ensures DistinctMessages(job)
    ensures job.announce == cfg.announceMap && job.command == cfg.autoMapCmd
  {
    Job(cfg.announceMap, cfg.autoMapCmd, "Mapping started!", "Mapping failed!", "Mapping complete!")
  }

  /** `needsRun()` for this task: enabled, and at least `autoMapMins` minutes since the last run. */
  lemma NeedsRunIff(cfg: Config, lastRun: int, now: int)
    ensures AutoTask.NeedsRun(IsEnabled(cfg), NextRun(lastRun, cfg), now)
        <==> cfg.autoMap && now - lastRun >= 60000 * cfg.autoMapMins
  {
  }

  /** With `autoMapMins > 0` nothing is due right after construction; with the
      task enabled it becomes due exactly when a full interval has elapsed. */
  lemma FirstRunAfterOneInterval(cfg: Config, built: int, now: int)
    ensures AutoTask.NeedsRun(IsEnabled(cfg), NextRun(New(built).lastRun, cfg), now)
        <==> cfg.autoMap && now >= built + 60000 * cfg.autoMapMins
  {
  }

  /** `run()`. */
  function Body(cfg: Config, lastRun: int, o: Oracle): (c: Cycle)
    ensures o.acquireInterrupted ==> c.trace == []
    ensures !o.acquireInterrupted ==> Exec(cfg.autoMapCmd) in c.trace
    ensures !o.acquireInterrupted ==> Count(c.trace, ReleaseSaveLock) == 1 && Count(c.trace, SaveOn) == 1
  {
    var c := RunCycle(MapJob(cfg), lastRun, o);
    if o.acquireInterrupted then c
    else
      LockReleasedExactlyOnce(MapJob(cfg), lastRun, o);
      CycleOrder(MapJob(cfg), lastRun, o);
      c
  }

  /** The time the driver reads at the guard check and after the body, and the body's oracle. */
  datatype Poll = Poll(now: int, finished: int, body: Oracle)

  /** `ends`: an unchecked exception from the launch escaped `run()` and
      ended the driver thread. */
  datatype Tick = Tick(task: AutoTask.Task, trace: seq<Effect>, ends: bool)

  /** One iteration of the driver loop for this task, with the driver's call
      meaning this task's `run()` (see `AutoTask.Iterate`). After a body that
      returns, the driver overwrites `lastRun` with the post-body time,
      whatever the body recorded; after a body that throws, the time the body
      recorded stands and the force flag is left set. */
  function Iterate(t: AutoTask.Task, cfg: Config, p: Poll): (r: Tick)
    requires t.running
    ensures var due := !t.paused && (t.forceRun || AutoTask.NeedsRun(IsEnabled(cfg), NextRun(t.lastRun, cfg), p.now));
      && (!due ==> r == Tick(t, [], false))
      && (due && (p.body.acquireInterrupted || p.body.launch != LaunchCrashes) ==>
            r == Tick(t.(lastRun := p.finished, forceRun := false), Body(cfg, t.lastRun, p.body).trace, false))
      && (due && p.body.launch == LaunchCrashes && !p.body.acquireInterrupted ==>
            r == Tick(t.(lastRun := p.body.savedAt), Body(cfg, t.lastRun, p.body).trace, true))
    ensures r.trace != [] && !r.ends ==> r.task.lastRun == p.finished && !r.task.forceRun
    ensures t.paused ==> r.trace == [] && r.task == t
    ensures t.forceRun && !t.paused && !p.body.acquireInterrupted ==> Exec(cfg.autoMapCmd) in r.trace
  {
    var c := Body(cfg, t.lastRun, p.body);
    var s := AutoTask.Iterate(t, AutoTask.Poll(IsEnabled(cfg), NextRun(t.lastRun, cfg), p.now, p.finished, c.outcome == Crashed));
    if !s.executed then Tick(s.task, [], false)
    else if s.threadEnds then Tick(s.task.(lastRun := c.lastRun), c.trace, true)
    else Tick(s.task, c.trace, false)
  }

  /** One iteration of the driver loop as written (`AutoTask.IterateAsWritten`):
      the mapping body is never called, and a due poll ends the driver thread. */
  function IterateAsWritten(t: AutoTask.Task, cfg: Config, p: Poll, delays: seq<nat>): (r: Tick)
    requires t.running
    ensures r.trace == [] && r.task == t
    ensures r.ends <==> !t.paused && (t.forceRun || AutoTask.NeedsRun(IsEnabled(cfg), NextRun(t.lastRun, cfg), p.now))
  {
    var s := AutoTask.IterateAsWritten(t, AutoTask.Poll(IsEnabled(cfg), NextRun(t.lastRun, cfg), p.now, p.finished, false), delays);
    Tick(s.task, [], s.threadEnds)
  }

  /** A forced poll whose lock acquisition succeeds launches the mapping
      command when the driver calls the body, and emits nothing as written. */
  lemma MappingNeverRunsAsWritten(t: AutoTask.Task, cfg: Config, p: Poll, delays: seq<nat>)
    requires t.running && !t.paused && t.forceRun && !p.body.acquireInterrupted
    ensures Exec(cfg.autoMapCmd) in Iterate(t, cfg, p).trace
    ensures IterateAsWritten(t, cfg, p, delays).trace == []
    ensures IterateAsWritten(t, cfg, p, delays).ends
  {
  }

  /** With `autoMap` off, only a forced poll runs the mapping. */
  lemma DisabledRunsOnlyWhenForced(t: AutoTask.Task, cfg: Config, p: Poll)
    requires t.running && !cfg.autoMap
    ensures Iterate(t, cfg, p).trace != [] ==> t.forceRun
    ensures !t.forceRun ==> Iterate(t, cfg, p) == Tick(t, [], false)
  {
  }

  /** An interrupted lock acquisition aborts the body silently, yet the
      driver that calls the body still records the poll as a run. */
  lemma InterruptedStillCounts(t: AutoTask.Task, cfg: Config, p: Poll)
    requires t.running && !t.paused
    requires t.forceRun || AutoTask.NeedsRun(IsEnabled(cfg), NextRun(t.lastRun, cfg), p.now)
    requires p.body.acquireInterrupted
    ensures Iterate(t, cfg, p).trace == []
    ensures Iterate(t, cfg, p).task.lastRun == p.finished
  {
  }
}

=== FILE: auto_run.dfy ===
/** `AutoRun`: a hand-rolled recurring job, independent of `AutoTask`, that
    runs a configured command under the save lock. It polls once a minute,
    its schedule test is strict, and its `continue` paths skip the sleep. */
module AutoRun {
  import AutoTask
  import opened Traces
  import opened Maintenance

  const MillisecondsPerMinute: int := 1000 * 60

  /** The values of the four configuration keys the job is constructed with. */
  datatype Config = Config(title: string, enabled: bool, announce: bool, command: string, intervalMins: int)

  datatype State = State(lastRun: int, running: bool)

  /** A freshly constructed runner: the first run waits a whole interval. */
  function New(now: int): (s: State)
    ensures s.lastRun == now && s.running
  {
    State(now, true)
  }

  function Stop(s: State): (r: State)
    ensures !r.running && r.lastRun == s.lastRun
  {
    s.(running := false)
  }

  /** `needsRun()`: strictly more than the interval has elapsed since the last run. */
  function NeedsRun(cfg: Config, lastRun: int, now: int): (due: bool)
    ensures due ==> cfg.enabled
    ensures cfg.enabled ==> (due <==> now - lastRun > MillisecondsPerMinute * cfg.intervalMins)
  {
    cfg.enabled && now - MillisecondsPerMinute * cfg.intervalMins > lastRun
  }

  function RunJob(cfg: Config): (job: Job)
    ensures job.announce == cfg.announce && job.command == cfg.command
    ensures DistinctMessages(job)
  {
    Job(cfg.announce, cfg.command, cfg.title + " started!", cfg.title + " failed!", cfg.title + " complete!")
  }

  /** The three messages differ in their suffix, so they are distinct. */
  lemma SuffixesDiffer(title: string)
    ensures title + " started!" != title + " failed!"
    ensures title + " started!" != title + " complete!"
    ensures title + " failed!" != title + " complete!"
  {
    var n := |title|;
    assert (title + " started!")[n + 1] == 's';
    assert (title + " failed!")[n + 1] == 'f';
    assert (title + " complete!")[n + 1] == 'c';
  }

  /** One pass of the `Runner` loop. `sleeps` is false on the two `continue`
      paths, which go straight back to the guard without the minute's sleep.
      `ends` is true when an unchecked launch exception escaped the loop and
      the runner thread died (the `run` flag itself is left set). */
  datatype Iteration = Iteration(state: State, trace: seq<Effect>, sleeps: bool, ends: bool)

  function Iterate(s: State, cfg: Config, now: int, o: Oracle): (it: Iteration)
    requires s.running
    ensures it.state.running
    ensures !NeedsRun(cfg, s.lastRun, now) ==> it == Iteration(s, [], true, false)
    ensures NeedsRun(cfg, s.lastRun, now) && o.acquireInterrupted ==> it == Iteration(s, [], false, false)
    ensures NeedsRun(cfg, s.lastRun, now) && !o.acquireInterrupted ==>
      && it.state.lastRun == o.savedAt
      && (it.sleeps <==> o.launch.Launched?)
      && (it.ends <==> o.launch == LaunchCrashes)
    ensures NeedsRun(cfg, s.lastRun, now) ==> it.trace == RunCycle(RunJob(cfg), s.lastRun, o).trace
    ensures it.ends ==> !it.sleeps
  {
    if !NeedsRun(cfg, s.lastRun, now) then Iteration(s, [], true, false)
    else
      SuffixesDiffer(cfg.title);
      var c := RunCycle(RunJob(cfg), s.lastRun, o);
      Iteration(s.(lastRun := c.lastRun), c.trace, c.outcome.Exited?, c.outcome == Crashed)
  }

  /** The schedule is the `AutoTask` one shifted by one millisecond: `AutoRun`
      becomes due one millisecond later than an `AutoTask` with the same interval. */
  lemma StrictComparedToAutoTask(cfg: Config, lastRun: int, now: int)
    ensures NeedsRun(cfg, lastRun, now)
        <==> AutoTask.NeedsRun(cfg.enabled, lastRun + MillisecondsPerMinute * cfg.intervalMins, now - 1)
  {
  }

  /** No run fires before a full interval has elapsed since construction. */
  lemma NoRunBeforeInterval(cfg: Config, built: int, now: int)
    requires now <= built + 60000 * cfg.intervalMins
    ensures !NeedsRun(cfg, New(built).lastRun, now)
  {
  }

  /** After a successful acquire, save-on and the release occur exactly once,
      including on the launch-failure `continue` path, and the run still counts. */
  lemma LaunchFailureStillReleases(s: State, cfg: Config, now: int, o: Oracle)
    requires s.running && NeedsRun(cfg, s.lastRun, now)
    requires !o.acquireInterrupted && o.launch == LaunchFails
    ensures var it := Iterate(s, cfg, now, o);
      && Count(it.trace, SaveOn) == 1
      && Count(it.trace, ReleaseSaveLock) == 1
      && it.state.lastRun == o.savedAt
      && !it.sleeps
  {
    LockReleasedExactlyOnce(RunJob(cfg), s.lastRun, o);
  }

  /** Every pass that acquires the lock, whatever the launch does, resumes
      saving and releases the lock exactly once, as its last two effects. */
  lemma DueRunReleasesOnce(s: State, cfg: Config, now: int, o: Oracle)
    requires s.running && NeedsRun(cfg, s.lastRun, now) && !o.acquireInterrupted
    ensures var t := Iterate(s, cfg, now, o).trace;
      && |t| >= 3
      && t[0] == AcquireSaveLock
      && t[|t| - 2] == SaveOn && t[|t| - 1] == ReleaseSaveLock
      && Count(t, SaveOn) == 1
      && Count(t, ReleaseSaveLock) == 1
  {
    LockReleasedExactlyOnce(RunJob(cfg), s.lastRun, o);
  }

  /** An unchecked launch exception ends the runner thread after the `finally`
      block has resumed saving and released the lock; nothing is announced
      or logged for it. */
  lemma CrashEndsRunner(s: State, cfg: Config, now: int, o: Oracle)
    requires s.running && NeedsRun(cfg, s.lastRun, now)
    requires !o.acquireInterrupted && o.launch == LaunchCrashes
    ensures var it := Iterate(s, cfg, now, o);
      && it.ends && !it.sleeps
      && it.state.lastRun == o.savedAt
      && Count(it.trace, SaveOn) == 1
      && Count(it.trace, ReleaseSaveLock) == 1
      && Say(cfg.title + " failed!") !in it.trace
      && (forall ctx :: ErrorLog(ctx) !in it.trace)
  {
    LockReleasedExactlyOnce(RunJob(cfg), s.lastRun, o);
    SuffixesDiffer(cfg.title);
    CrashReleasesSilently(RunJob(cfg), s.lastRun, o);
  }

  /** A negative exit code gives the "failed" announcement, any other the "complete" one. */
  lemma ExitAnnounced(s: State, cfg: Config, now: int, o: Oracle)
    requires s.running && NeedsRun(cfg, s.lastRun, now) && cfg.announce
    requires !o.acquireInterrupted && o.launch.Launched?
    ensures var it := Iterate(s, cfg, now, o);
      && (o.launch.exitCode < 0 ==> Say(cfg.title + " failed!") in it.trace && Say(cfg.title + " complete!") !in it.trace)
      && (o.launch.exitCode >= 0 ==> Say(cfg.title + " complete!") in it.trace && Say(cfg.title + " failed!") !in it.trace)
  {
    SuffixesDiffer(cfg.title);
    ExitCodeClassified(RunJob(cfg), s.lastRun, o);
  }
}

=== FILE: auto_task.dfy ===
/** The generic recurring-task driver: one thread per task that polls an
    enablement/next-run predicate and honours force, pause and stop requests.

    The unqualified `run()` call in the driver loop names the driver thread's
    own `run()`, not the task body, so a due poll re-enters the loop until the
    stack overflows (`IterateAsWritten`). `Iterate` is the driver with the
    call meant as `AutoTask.this.run()`: it executes the body, clears the force
    flag and records the time of the last execution.

    Time and the hook values are inputs: a `Poll` carries what `isEnabled()`
    and `nextRun()` answered and what the clock read at the guard check and
    after the body returned. */
module AutoTask {

  const MillisecondsPerMinute: int := 1000 * 60

  datatype Task = Task(
    name: string,
    interval: int,      // sleep between polls, in milliseconds
    lastRun: int,
    paused: bool,
    forceRun: bool,
    running: bool)

  /** A freshly constructed task, its driver thread started. */
  function New(name: string, interval: int, initialRun: bool, now: int): (t: Task)
    ensures t.lastRun == (if initialRun then 0 else now)
    ensures t.name == name && t.interval == interval
    ensures t.running && !t.paused && !t.forceRun
  {
    Task(name, interval, if initialRun then 0 else now, false, false, true)
  }

  function ForceRun(t: Task): (r: Task)
    ensures r.forceRun
    ensures r.(forceRun := t.forceRun) == t
  {
    t.(forceRun := true)
  }

  function SetPaused(t: Task, pause: bool): (r: Task)
    ensures r.paused == pause
    ensures r.(paused := t.paused) == t
  {
    t.(paused := pause)
  }

  /** Clears the running flag; the driver leaves its loop at the next guard check. */
  function Stop(t: Task): (r: Task)
    ensures !IsRunning(r)
    ensures r.(running := t.running) == t
  {
    t.(running := false)
  }

  predicate IsRunning(t: Task) {
    t.running
  }

  /** `needsRun()`: the hook values and the clock decide whether the schedule is due. */
  function NeedsRun(enabled: bool, nextRun: int, now: int): (due: bool)
    ensures due ==> enabled
    ensures enabled ==> (due <==> now - nextRun >= 0)
  {
    enabled && nextRun <= now
  }

  /** What one poll observes: the hooks' answers, the clock at the guard check,
      the clock after the body has returned, and whether the body threw an
      unchecked exception (which nothing in the driver catches). */
  datatype Poll = Poll(enabled: bool, nextRun: int, now: int, finished: int, bodyThrows: bool)

  /** `threadEnds`: the exception escaped the loop and the driver thread died. */
  datatype Step = Step(task: Task, executed: bool, threadEnds: bool)

  /** One iteration of the driver loop whose guard found the task running,
      with the call at its heart executing the task body. */
  function Iterate(t: Task, p: Poll): (s: Step)
    requires t.running
    ensures s.executed <==> !t.paused && (t.forceRun || NeedsRun(p.enabled, p.nextRun, p.now))
    ensures s.threadEnds <==> s.executed && p.bodyThrows
    ensures s.executed && !p.bodyThrows ==> !s.task.forceRun && s.task.lastRun == p.finished
    ensures !s.executed || p.bodyThrows ==> s.task == t
    ensures s.task.(lastRun := t.lastRun, forceRun := t.forceRun) == t
  {
    if !t.paused && (t.forceRun || NeedsRun(p.enabled, p.nextRun, p.now)) then
      if p.bodyThrows then Step(t, true, true)
      else Step(t.(forceRun := false, lastRun := p.finished), true, false)
    else
      Step(t, false, false)
  }

  /** What the driver's re-entrant `run()` call leads to: after `depth` nested
      levels have re-entered, either the stack overflows (`Overflow`) or a
      nested level finds the task not due and stays in its own loop. */
  datatype Nested = Overflow | Settles(depth: nat)

  /** The nested levels of the driver loop as written. Each level checks the
      guard on the same task (no request arrives meanwhile) and the same
      `nextRun()` answer, at a clock `delays[0]` later than the level above;
      running out of `delays` is running out of stack. */
  function Reenter(t: Task, enabled: bool, nextRun: int, now: int, delays: seq<nat>): Nested
    decreases |delays|
  {
    if |delays| == 0 then Overflow
    else
      var later := now + delays[0];
      if !t.paused && (t.forceRun || NeedsRun(enabled, nextRun, later)) then
        match Reenter(t, enabled, nextRun, later, delays[1..])
        case Overflow => Overflow
        case Settles(d) => Settles(d + 1)
      else Settles(0)
  }

  /** Time only moves forward and nothing clears the force flag, so every
      nested level of a due poll is due as well: the recursion always ends in
      a stack overflow. */
  lemma {:induction false} DueCallOverflows(t: Task, enabled: bool, nextRun: int, now: int, delays: seq<nat>)
    requires !t.paused && (t.forceRun || NeedsRun(enabled, nextRun, now))
    ensures Reenter(t, enabled, nextRun, now, delays) == Overflow
    decreases |delays|
  {
    if |delays| > 0 {
      DueCallOverflows(t, enabled, nextRun, now + delays[0], delays[1..]);
    }
  }

  /** One iteration of the driver loop as written: a due poll re-enters the
      loop instead of calling the body, and the stack overflow that follows
      ends the driver thread before the force flag is cleared or the run is
      recorded. The body's own behaviour plays no part. */
  function IterateAsWritten(t: Task, p: Poll, delays: seq<nat>): (s: Step)
    requires t.running
    ensures s.executed <==> !t.paused && (t.forceRun || NeedsRun(p.enabled, p.nextRun, p.now))
    ensures s.threadEnds <==> s.executed
    ensures s.task == t
  {
    if !t.paused && (t.forceRun || NeedsRun(p.enabled, p.nextRun, p.now)) then
      var n := Reenter(t, p.enabled, p.nextRun, p.now, delays);
      DueCallOverflows(t, p.enabled, p.nextRun, p.now, delays);
      Step(t, true, n.Overflow?)
    else Step(t, false, false)
  }

  /** A request made from another thread between two guard checks. */
  datatype Control = Force | Pause(pause: bool) | StopTask

  function Apply(t: Task, c: Control): Task {
    match c
    case Force => ForceRun(t)
    case Pause(b) => SetPaused(t, b)
    case StopTask => Stop(t)
  }

  function ApplyAll(t: Task, cs: seq<Control>): Task
    decreases |cs|
  {
    if |cs| == 0 then t else ApplyAll(Apply(t, cs[0]), cs[1..])
  }

  /** The requests that arrive before a poll, and what that poll observes. */
  datatype Tick = Tick(controls: seq<Control>, poll: Poll)

  datatype Run = Run(task: Task, iterations: nat, executions: nat)

  /** The driver loop over a sequence of polls: requests are applied, then the
      `while (run)` guard is checked, then one iteration runs. A body that
      throws ends the loop. */
  function RunTicks(t: Task, ticks: seq<Tick>): (r: Run)
    ensures r.executions <= r.iterations <= |ticks|
    ensures |ticks| > 0 && ApplyAll(t, ticks[0].controls).running
         && Iterate(ApplyAll(t, ticks[0].controls), ticks[0].poll).threadEnds
         ==> r.iterations == 1 && r.executions == 1
    decreases |ticks|
  {
    if |ticks| == 0 then Run(t, 0, 0)
    else
      var t1 := ApplyAll(t, ticks[0].controls);
      if !t1.running then Run(t1, 0, 0)
      else
        var s := Iterate(t1, ticks[0].poll);
        if s.threadEnds then Run(s.task, 1, 1)
        else
          var rest := RunTicks(s.task, ticks[1..]);
          Run(rest.task, rest.iterations + 1, rest.executions + (if s.executed then 1 else 0))
  }

  /** Requests never restart a stopped task, and a stop among them always stops it. */
  lemma {:induction false} ApplyAllRunning(t: Task, cs: seq<Control>)
    ensures ApplyAll(t, cs).running <==> t.running && StopTask !in cs
    decreases |cs|
  {
    if |cs| > 0 {
      ApplyAllRunning(Apply(t, cs[0]), cs[1..]);
      assert cs == [cs[0]] + cs[1..];
    }
  }

  /** Without an unpause request, a paused task stays paused. */
  lemma {:induction false} ApplyAllPaused(t: Task, cs: seq<Control>)
    requires t.paused && Pause(false) !in cs
    ensures ApplyAll(t, cs).paused
    decreases |cs|
  {
    if |cs| > 0 {
      assert cs[0] != Pause(false);
      assert forall c :: c in cs[1..] ==> c in cs;
      ApplyAllPaused(Apply(t, cs[0]), cs[1..]);
    }
  }

  /** After `stop()` the loop performs no iteration beyond the guard check that observes it. */
  lemma {:induction false} StopEndsLoop(t: Task, ticks: seq<Tick>, k: nat)
    requires k < |ticks| && StopTask in ticks[k].controls
    ensures RunTicks(t, ticks).iterations <= k
    decreases k
  {
    var t1 := ApplyAll(t, ticks[0].controls);
    ApplyAllRunning(t, ticks[0].controls);
    if k > 0 && t1.running {
      var s := Iterate(t1, ticks[0].poll);
      assert ticks[1..][k - 1] == ticks[k];
      StopEndsLoop(s.task, ticks[1..], k - 1);
    }
  }

  /** A stopped task never executes its body again, whatever is requested of it. */
  lemma StoppedNeverRuns(t: Task, ticks: seq<Tick>)
    ensures RunTicks(Stop(t), ticks).iterations == 0
  {
    if |ticks| > 0 {
      ApplyAllRunning(Stop(t), ticks[0].controls);
    }
  }

  /** While paused (and never unpaused), the body never executes, even when forced. */
  lemma {:induction false} PausedNeverRuns(t: Task, ticks: seq<Tick>)
    requires t.paused
    requires forall k :: 0 <= k < |ticks| ==> Pause(false) !in ticks[k].controls
    ensures RunTicks(t, ticks).executions == 0
    decreases |ticks|
  {
    if |ticks| > 0 {
      var t1 := ApplyAll(t, ticks[0].controls);
      ApplyAllPaused(t, ticks[0].controls);
      if t1.running {
        var s := Iterate(t1, ticks[0].poll);
        assert forall k :: 0 <= k < |ticks[1..]| ==> ticks[1..][k] == ticks[k + 1];
        PausedNeverRuns(s.task, ticks[1..]);
      }
    }
  }

  /** `forceRun()` on a running, unpaused task causes exactly one execution:
      the next poll executes the body whatever the schedule says; if the body
      returns, the flag is clear and a following poll that is not due does
      not execute; if it throws, the driver ends with the flag still set. */
  lemma ForceRunExecutesOnce(t: Task, p1: Poll, p2: Poll)
    requires t.running && !t.paused
    requires !NeedsRun(p2.enabled, p2.nextRun, p2.now)
    ensures Iterate(ForceRun(t), p1).executed
    ensures !p1.bodyThrows ==> !Iterate(ForceRun(t), p1).task.forceRun
    ensures !p1.bodyThrows ==> !Iterate(Iterate(ForceRun(t), p1).task, p2).executed
    ensures p1.bodyThrows ==> Iterate(ForceRun(t), p1).threadEnds && Iterate(ForceRun(t), p1).task == ForceRun(t)
  {
  }

  /** As written, `forceRun()` never takes effect: the forced poll ends the
      driver thread with the force flag still set and the last run unchanged,
      where the corrected call executes the body once and clears the flag. */
  lemma ForcedPollAsWritten(t: Task, p: Poll, delays: seq<nat>)
    requires t.running && !t.paused
    ensures var s := IterateAsWritten(ForceRun(t), p, delays);
      s.threadEnds && s.task.forceRun && s.task.lastRun == t.lastRun
    ensures var c := Iterate(ForceRun(t), p.(bodyThrows := false));
      c.executed && !c.threadEnds && !c.task.forceRun
  {
  }

  /** Unpausing resumes normal triggering on the next poll. */
  lemma UnpauseResumes(t: Task, p: Poll)
    requires t.running && t.paused
    ensures !Iterate(t, p).executed
    ensures Iterate(SetPaused(t, false), p).executed <==> t.forceRun || NeedsRun(p.enabled, p.nextRun, p.now)
  {
  }
}

=== FILE: connection_manager.dfy ===
/** `DatabaseConnectionManager`: a registry from connector name to connector,
    rebuilt from a list of candidate connector types, and the lookup of the
    configured connector.

    The reflective subtype scan becomes an explicit candidate list, in scan
    order; each candidate says whether its type is abstract and, when its
    construction succeeds, the connector it yields (`None` when it throws). */
module DatabaseConnectionManager {
  import opened Outcomes
  import opened DatabaseErrors

  datatype Candidate<C> = Candidate(isAbstract: bool, instance: Option<C>)

  datatype Manager<C> = Manager(connectors: map<string, C>)

  /** `candidate` is a concrete type that constructs, and registers under `key`. */
  predicate Supplies<C>(candidate: Candidate<C>, nameOf: C -> string, key: string) {
    !candidate.isAbstract && candidate.instance.Some? && nameOf(candidate.instance.value) == key
  }

  /** One pass of the loop body: abstract types and failed constructions are skipped. */
  function Register<C>(m: map<string, C>, candidate: Candidate<C>, nameOf: C -> string): map<string, C> {
    if candidate.isAbstract then m
    else match candidate.instance
      case None => m
      case Some(connector) => m[nameOf(connector) := connector]
  }

  /** The loop over all candidates, starting from an empty map. */
  function Reload<C>(candidates: seq<Candidate<C>>, nameOf: C -> string): map<string, C>
    decreases |candidates|
  {
    if |candidates| == 0 then map[]
    else
      var n := |candidates| - 1;
      Register(Reload(candidates[..n], nameOf), candidates[n], nameOf)
  }

  /** `reloadConnectors()`: the previous registry is discarded entirely. */
  function ReloadConnectors<C>(mgr: Manager<C>, candidates: seq<Candidate<C>>, nameOf: C -> string): (r: Manager<C>)
    ensures forall key :: key in r.connectors ==>
      exists i :: 0 <= i < |candidates| && Supplies(candidates[i], nameOf, key)
  {
    ReloadSpec(candidates, nameOf);
    Manager(Reload(candidates, nameOf))
  }

  /** A name is registered exactly when some candidate supplies it, and it maps
      to the connector of the LAST candidate supplying it. */
  lemma {:induction false} ReloadSpec<C>(candidates: seq<Candidate<C>>, nameOf: C -> string)
    ensures forall key ::
      (key in Reload(candidates, nameOf) <==> exists i :: 0 <= i < |candidates| && Supplies(candidates[i], nameOf, key))
    ensures forall key, i ::
      0 <= i < |candidates| && Supplies(candidates[i], nameOf, key)
      && (forall j :: i < j < |candidates| ==> !Supplies(candidates[j], nameOf, key))
      ==> key in Reload(candidates, nameOf) && Reload(candidates, nameOf)[key] == candidates[i].instance.value
    decreases |candidates|
  {
    if |candidates| > 0 {
      var n := |candidates| - 1;
      var prefix := candidates[..n];
      ReloadSpec(prefix, nameOf);
      assert forall i :: 0 <= i < n ==> prefix[i] == candidates[i];
      forall key
        ensures key in Reload(candidates, nameOf)
          <==> exists i :: 0 <= i < |candidates| && Supplies(candidates[i], nameOf, key)
      {
        if key in Reload(candidates, nameOf) && !Supplies(candidates[n], nameOf, key) {
          assert key in Reload(prefix, nameOf);
          var i :| 0 <= i < n && Supplies(prefix[i], nameOf, key);
          assert Supplies(candidates[i], nameOf, key);
        }
        if exists i :: 0 <= i < |candidates| && Supplies(candidates[i], nameOf, key) {
          var i :| 0 <= i < |candidates| && Supplies(candidates[i], nameOf, key);
          if i < n {
            assert Supplies(prefix[i], nameOf, key);
          }
        }
      }
      forall key, i |
        0 <= i < |candidates| && Supplies(candidates[i], nameOf, key)
        && (forall j :: i < j < |candidates| ==> !Supplies(candidates[j], nameOf, key))
        ensures key in Reload(candidates, nameOf) && Reload(candidates, nameOf)[key] == candidates[i].instance.value
      {
        if i < n {
          assert Supplies(prefix[i], nameOf, key);
          assert forall j :: i < j < n ==> !Supplies(prefix[j], nameOf, key);
        }
      }
    }
  }

  /** A candidate that is abstract or whose construction throws changes
      nothing: the candidates after it are registered as if it were absent. */
  lemma {:induction false} SkippedCandidate<C>(before: seq<Candidate<C>>, skipped: Candidate<C>,
                                             after: seq<Candidate<C>>, nameOf: C -> string)
    requires skipped.isAbstract || skipped.instance.None?
    ensures Reload(before + [skipped] + after, nameOf) == Reload(before + after, nameOf)
    decreases |after|
  {
    var all := before + [skipped] + after;
    if |after| == 0 {
      assert all[..|all| - 1] == before;
      assert before + after == before;
    } else {
      var m := |after| - 1;
      assert all[..|all| - 1] == before + [skipped] + after[..m];
      assert (before + after)[..|before + after| - 1] == before + after[..m];
      SkippedCandidate(before, skipped, after[..m], nameOf);
    }
  }

  const MissingConnector: DbError := Configuration("Missing dbConnector from configuration")

  function UnknownConnector(name: string): DbError {
    Configuration("Specified database connector " + name + " was not found")
  }

  /** `getConnector()`: the connector named by the `dbConnector` property opens
      a new connection; `newConnection` stands for that connector's `newConnection`. */
  function GetConnector<C, R>(mgr: Manager<C>, props: map<string, string>,
                              newConnection: C -> Result<R, DbError>): (r: Result<R, DbError>)
    ensures "dbConnector" !in props ==> r == Failure(MissingConnector)
    ensures "dbConnector" in props && props["dbConnector"] !in mgr.connectors
      ==> r == Failure(UnknownConnector(props["dbConnector"]))
    ensures "dbConnector" in props && props["dbConnector"] in mgr.connectors
      ==> r == newConnection(mgr.connectors[props["dbConnector"]])
  {
    if "dbConnector" !in props then Failure(MissingConnector)
    else
      var name := props["dbConnector"];
      if name !in mgr.connectors then Failure(UnknownConnector(name))
      else newConnection(mgr.connectors[name])
  }

  /** After a reload, the configured name selects the last candidate registering
      under it; a name no candidate supplies is a configuration error. */
  lemma LookupAfterReload<C, R>(candidates: seq<Candidate<C>>, nameOf: C -> string,
                                props: map<string, string>, newConnection: C -> Result<R, DbError>, i: nat)
    requires "dbConnector" in props && i < |candidates|
    requires Supplies(candidates[i], nameOf, props["dbConnector"])
    requires forall j :: i < j < |candidates| ==> !Supplies(candidates[j], nameOf, props["dbConnector"])
    ensures GetConnector(Manager(Reload(candidates, nameOf)), props, newConnection)
      == newConnection(candidates[i].instance.value)
  {
    ReloadSpec(candidates, nameOf);
  }

  lemma UnsuppliedNameFails<C, R>(candidates: seq<Candidate<C>>, nameOf: C -> string,
                                  props: map<string, string>, newConnection: C -> Result<R, DbError>)
    requires "dbConnector" in props
    requires forall j :: 0 <= j < |candidates| ==> !Supplies(candidates[j], nameOf, props["dbConnector"])
    ensures GetConnector(Manager(Reload(candidates, nameOf)), props, newConnection)
      == Failure(UnknownConnector(props["dbConnector"]))
  {
    ReloadSpec(candidates, nameOf);
  }
}

=== FILE: database_connection.dfy ===
/** `DatabaseConnection`: a named holder of one JDBC connection and one
    statement, as a state machine over two optional handles. The driver's
    answers (liveness probes, close failures, statement results) are inputs. */
module DatabaseConnection {
  import opened Outcomes
  import opened DatabaseErrors

  const DefaultTimeout: int := 10

  const NoOpenConnection: DbError := Sql("No open connection.")

  /** An opaque JDBC handle: a `java.sql.Connection` or `java.sql.Statement`. */
  datatype Handle = Handle(id: nat)

  datatype Connection = Connection(name: string, connection: Option<Handle>, statement: Option<Handle>)

  predicate IsClosed(c: Connection) {
    c.connection.None? && c.statement.None?
  }

  predicate IsOpen(c: Connection) {
    c.connection.Some? && c.statement.Some?
  }

  /** A newly constructed connector holds no handles. */
  function New(name: string): (c: Connection)
    ensures IsClosed(c) && GetName(c) == name
  {
    Connection(name, None, None)
  }

  function GetName(c: Connection): string {
    c.name
  }

  /** What the driver answers: `Connection.isValid(timeout)` for each timeout,
      and `Statement.isClosed()`. */
  datatype Probe = Probe(alive: int -> bool, statementClosed: bool)

  /** `isValid(timeout)`: both handles present, the connection answers the
      probe, and the statement is still open. */
  function IsValid(c: Connection, timeout: int, probe: Probe): (b: bool)
    ensures b <==> IsOpen(c) && probe.alive(timeout) && !probe.statementClosed
  {
    c.connection != None && probe.alive(timeout) && c.statement != None && !probe.statementClosed
  }

  /** `isValid()` probes with the default timeout of ten seconds. */
  function IsValidDefault(c: Connection, probe: Probe): (b: bool)
    ensures b <==> IsOpen(c) && probe.alive(10) && !probe.statementClosed
  {
    IsValid(c, DefaultTimeout, probe)
  }

  datatype CloseCall = CloseStatement(statement: Handle) | CloseConnection(connection: Handle)

  /** The exception, if any, that each underlying `close()` would throw. */
  datatype CloseFailures = CloseFailures(statementClose: Option<DbError>, connectionClose: Option<DbError>)

  datatype Closed = Closed(conn: Connection, calls: seq<CloseCall>, error: Option<DbError>)

  /** `close()`: closes the statement, then the connection; the first
      exception aborts the remaining close and is rethrown, but both fields
      are cleared in every case. */
  function Close(c: Connection, f: CloseFailures): (r: Closed)
    ensures IsClosed(r.conn) && GetName(r.conn) == GetName(c)
    ensures IsClosed(c) ==> r.calls == [] && r.error == None
    ensures c.statement.Some? ==> |r.calls| > 0 && r.calls[0] == CloseStatement(c.statement.value)
    ensures forall h ::
      (CloseConnection(h) in r.calls <==> c.connection == Some(h) && !(c.statement.Some? && f.statementClose.Some?))
    ensures forall h :: CloseStatement(h) in r.calls <==> c.statement == Some(h)
    ensures |r.calls| <= 2
    ensures c.statement.Some? && f.statementClose.Some? ==> r.error == f.statementClose
    ensures !(c.statement.Some? && f.statementClose.Some?) ==>
      r.error == (if c.connection.Some? then f.connectionClose else None)
    ensures r.error.Some? <==>
      (c.statement.Some? && f.statementClose.Some?) || (c.connection.Some? && f.connectionClose.Some?)
  {
    var cleared := c.(connection := None, statement := None);
    var closeStatement := if c.statement.Some? then [CloseStatement(c.statement.value)] else [];
    if c.statement.Some? && f.statementClose.Some? then
      Closed(cleared, closeStatement, f.statementClose)
    else if c.connection.Some? then
      Closed(cleared, closeStatement + [CloseConnection(c.connection.value)], f.connectionClose)
    else
      Closed(cleared, closeStatement, None)
  }

  /** The answer of a statement execution and the SQL actually sent to the driver. */
  datatype Executed<T> = Executed(result: Result<T, DbError>, sent: seq<string>)

  /** The guard shared by `execute` and `executeQuery`: without both handles
      nothing is sent and "No open connection." is thrown; otherwise the
      statement's own answer is returned. */
  function Delegate<T>(c: Connection, sql: string, reply: Result<T, DbError>): (r: Executed<T>)
    ensures !IsOpen(c) ==> r == Executed(Failure(NoOpenConnection), [])
    ensures IsOpen(c) ==> r == Executed(reply, [sql])
  {
    if c.connection.None? || c.statement.None? then Executed(Failure(NoOpenConnection), [])
    else Executed(reply, [sql])
  }

  /** `execute(sql)`, answering whether the statement produced a result set. */
  function Execute(c: Connection, sql: string, reply: Result<bool, DbError>): (r: Executed<bool>)
    ensures !IsOpen(c) ==> r.result == Failure(NoOpenConnection) && r.sent == []
    ensures IsOpen(c) ==> r.result == reply && r.sent == [sql]
  {
    Delegate(c, sql, reply)
  }

  /** `executeQuery(sql)`, answering the driver's result set. */
  function ExecuteQuery<R>(c: Connection, sql: string, reply: Result<R, DbError>): (r: Executed<R>)
    ensures !IsOpen(c) ==> r.result == Failure(NoOpenConnection) && r.sent == []
    ensures IsOpen(c) ==> r.result == reply && r.sent == [sql]
  {
    Delegate(c, sql, reply)
  }

  /** The name a connector reports is the one it was constructed with, and
      closing it keeps that name. */
  lemma NameIsFixed(name: string, c: Connection, f: CloseFailures)
    ensures GetName(New(name)) == name
    ensures GetName(Close(c, f).conn) == GetName(c)
  {
  }

  /** Closing twice is harmless: the second close touches nothing and throws nothing. */
  lemma CloseIdempotent(c: Connection, f1: CloseFailures, f2: CloseFailures)
    ensures var once := Close(c, f1).conn;
      Close(once, f2) == Closed(once, [], None)
  {
  }

  /** After `close()`, whatever the driver threw, statements fail without reaching the driver. */
  lemma ExecuteAfterCloseFails<R>(c: Connection, f: CloseFailures, sql: string, reply: Result<R, DbError>)
    ensures Delegate(Close(c, f).conn, sql, reply) == Executed(Failure(NoOpenConnection), [])
  {
  }

  /** A connection that passes the validity probe executes statements. */
  lemma ValidExecutes<R>(c: Connection, timeout: int, probe: Probe, sql: string, reply: Result<R, DbError>)
    requires IsValid(c, timeout, probe)
    ensures Delegate(c, sql, reply) == Executed(reply, [sql])
  {
  }
}

=== FILE: maintenance.dfy ===
/** The save-lock maintenance cycle that `AutoMap.run()` and the `AutoRun`
    runner share: acquire the save lock, announce, flush and suspend saving,
    launch the external command, wait for it, announce the outcome, and on
    every exit path resume saving and release the lock.

    The cycle is an effect trace. Lock interruption, the clock, process
    launch, interrupted waits and the exit code are oracle inputs. */
module Maintenance {
  import opened Traces

  datatype Effect =
    | AcquireSaveLock
    | Say(message: string)         // `runCommand("say", message)`
    | SaveAll                      // `runCommand("save-all", null)`
    | AwaitSave                    // the busy-wait on `isSaving()`, assumed to end
    | SaveOff                      // `runCommand("save-off", null)`
    | RecordLastRun(time: int)     // `lastRun = System.currentTimeMillis()`
    | Exec(command: string)        // `Runtime.exec(command)` attempted
    | Destroy                      // `process.destroy()`
    | ErrorLog(context: string)    // `server.errorLog(e, context)`
    | SaveOn                       // `runCommand("save-on", null)`
    | ReleaseSaveLock

  /** How the launch went: it threw an `IOException` (caught and reported);
      it threw an unchecked exception, as `Runtime.exec` does for a null or
      empty command (not caught: only the `finally` block runs before it
      leaves the body); or it started a process whose `waitFor` was
      interrupted once per entry of `interrupts` (each entry is the value of
      the running flag seen at that interruption) before returning `exitCode`. */
  datatype Launch =
    | LaunchFails
    | LaunchCrashes
    | Launched(interrupts: seq<bool>, exitCode: int)

  datatype Oracle = Oracle(acquireInterrupted: bool, savedAt: int, launch: Launch)

  /** The configuration of one maintenance job. */
  datatype Job = Job(announce: bool, command: string, started: string, failed: string, complete: string)

  /** The three user-visible messages are distinct. */
  predicate DistinctMessages(job: Job) {
    job.started != job.failed && job.started != job.complete && job.failed != job.complete
  }

  /** `Crashed`: the unchecked exception propagates to the caller of the body. */
  datatype Outcome = Interrupted | LaunchFailed | Crashed | Exited(code: int)

  datatype Cycle = Cycle(trace: seq<Effect>, lastRun: int, outcome: Outcome)

  /** `announce(message)`: a `say` command only when announcements are enabled. */
  function Announce(job: Job, message: string): (r: seq<Effect>)
    ensures forall e :: e in r ==> e == Say(message)
    ensures Say(message) in r <==> job.announce
    ensures |r| <= 1
  {
    if job.announce then [Say(message)] else []
  }

  /** The `waitFor` retry loop: an interruption observed after a stop destroys
      the process; any other interruption just resumes waiting. */
  function AwaitExit(interrupts: seq<bool>): (r: seq<Effect>)
    ensures forall e :: e in r ==> e == Destroy
    ensures Count(r, Destroy) == Count(interrupts, false)
    decreases |interrupts|
  {
    if |interrupts| == 0 then []
    else
      var head := if interrupts[0] then [] else [Destroy];
      var tail := AwaitExit(interrupts[1..]);
      CountAppend(head, tail, Destroy);
      head + tail
  }

  /** The classification of an exit code: negative means failure. */
  function ResultMessage(job: Job, exitCode: int): (m: string)
    ensures exitCode < 0 ==> m == job.failed
    ensures exitCode >= 0 ==> m == job.complete
  {
    if exitCode < 0 then job.failed else job.complete
  }

  /** Everything up to and including the launch attempt. */
  function Prologue(job: Job, savedAt: int): seq<Effect> {
    [AcquireSaveLock] + Announce(job, job.started) + [SaveAll, AwaitSave, SaveOff, RecordLastRun(savedAt), Exec(job.command)]
  }

  /** What follows the launch attempt inside the `try` block. */
  function Supervise(job: Job, launch: Launch): seq<Effect> {
    match launch
    case LaunchFails => Announce(job, job.failed) + [ErrorLog("AutoRun Failure")]
    case LaunchCrashes => []
    case Launched(interrupts, code) => AwaitExit(interrupts) + Announce(job, ResultMessage(job, code))
  }

  /** The `finally` block. */
  const Epilogue: seq<Effect> := [SaveOn, ReleaseSaveLock]

  function RunCycle(job: Job, lastRun: int, o: Oracle): (c: Cycle)
    ensures o.acquireInterrupted <==> c.outcome == Interrupted
    ensures o.acquireInterrupted ==> c.trace == [] && c.lastRun == lastRun
    ensures !o.acquireInterrupted ==> c.lastRun == o.savedAt
    ensures c.outcome == Crashed <==> !o.acquireInterrupted && o.launch == LaunchCrashes
  {
    if o.acquireInterrupted then Cycle([], lastRun, Interrupted)
    else
      var outcome := match o.launch
        case LaunchFails => LaunchFailed
        case LaunchCrashes => Crashed
        case Launched(_, code) => Exited(code);
      Cycle(Prologue(job, o.savedAt) + Supervise(job, o.launch) + Epilogue, o.savedAt, outcome)
  }

  /** The lock and the save cycle are each touched in exactly one place of the prologue. */
  lemma PrologueCounts(job: Job, savedAt: int)
    ensures Count(Prologue(job, savedAt), AcquireSaveLock) == 1
    ensures Count(Prologue(job, savedAt), SaveOn) == 0
    ensures Count(Prologue(job, savedAt), ReleaseSaveLock) == 0
  {
    var a := Announce(job, job.started);
    var rest: seq<Effect> := [SaveAll, AwaitSave, SaveOff, RecordLastRun(savedAt), Exec(job.command)];
    assert Prologue(job, savedAt) == [AcquireSaveLock] + (a + rest);
    CountAppend([AcquireSaveLock], a + rest, AcquireSaveLock);
  }

  /** The supervision part never touches the lock or the save cycle. */
  lemma SuperviseCounts(job: Job, launch: Launch)
    ensures AcquireSaveLock !in Supervise(job, launch)
    ensures SaveOn !in Supervise(job, launch)
    ensures ReleaseSaveLock !in Supervise(job, launch)
  {
  }

  /** After a successful acquire, "save-on" and the release happen exactly once,
      on every exit path (normal exit, launch failure and unchecked exception alike), and they are
      the last two effects of the cycle; the acquire is the first. */
  lemma {:induction false} LockReleasedExactlyOnce(job: Job, lastRun: int, o: Oracle)
    requires !o.acquireInterrupted
    ensures var t := RunCycle(job, lastRun, o).trace;
      && |t| >= 3
      && t[0] == AcquireSaveLock
      && t[|t| - 2] == SaveOn && t[|t| - 1] == ReleaseSaveLock
      && Count(t, AcquireSaveLock) == 1
      && Count(t, SaveOn) == 1
      && Count(t, ReleaseSaveLock) == 1
  {
    var p := Prologue(job, o.savedAt);
    var s := Supervise(job, o.launch);
    PrologueCounts(job, o.savedAt);
    SuperviseCounts(job, o.launch);
    CountAppend(p, s, AcquireSaveLock);
    CountAppend(p, s, SaveOn);
    CountAppend(p, s, ReleaseSaveLock);
    CountAppend(p + s, Epilogue, AcquireSaveLock);
    CountAppend(p + s, Epilogue, SaveOn);
    CountAppend(p + s, Epilogue, ReleaseSaveLock);
  }

  /** Effects happen in program order: start announce, save-all, wait while
      saving, save-off, record the run time, launch; resume saving afterwards. */
  lemma CycleOrder(job: Job, lastRun: int, o: Oracle)
    requires !o.acquireInterrupted
    ensures var t := RunCycle(job, lastRun, o).trace;
      && (job.announce ==> Before(t, Say(job.started), SaveAll))
      && Before(t, AcquireSaveLock, SaveAll)
      && Before(t, SaveAll, AwaitSave)
      && Before(t, AwaitSave, SaveOff)
      && Before(t, SaveOff, RecordLastRun(o.savedAt))
      && Before(t, RecordLastRun(o.savedAt), Exec(job.command))
      && Before(t, Exec(job.command), SaveOn)
  {
    var t := RunCycle(job, lastRun, o).trace;
    var a := Announce(job, job.started);
    var n := 1 + |a|;
    assert t[0] == AcquireSaveLock;
    assert t[n] == SaveAll && t[n + 1] == AwaitSave && t[n + 2] == SaveOff;
    assert t[n + 3] == RecordLastRun(o.savedAt) && t[n + 4] == Exec(job.command);
    assert t[|t| - 2] == SaveOn;
    if job.announce {
      assert t[1] == Say(job.started);
    }
  }

  /** A launch failure logs the error and never announces completion. */
  lemma LaunchFailureReported(job: Job, lastRun: int, o: Oracle)
    requires !o.acquireInterrupted && o.launch == LaunchFails
    requires DistinctMessages(job)
    ensures var c := RunCycle(job, lastRun, o);
      && c.outcome == LaunchFailed
      && ErrorLog("AutoRun Failure") in c.trace
      && Say(job.complete) !in c.trace
  {
    var p := Prologue(job, o.savedAt);
    assert RunCycle(job, lastRun, o).trace[|p| + |Announce(job, job.failed)|] == ErrorLog("AutoRun Failure");
  }

  /** On a launch failure the "failed" announcement is made exactly once when announcing. */
  lemma {:induction false} LaunchFailureAnnouncedOnce(job: Job, lastRun: int, o: Oracle)
    requires !o.acquireInterrupted && o.launch == LaunchFails
    requires DistinctMessages(job)
    ensures Count(RunCycle(job, lastRun, o).trace, Say(job.failed)) == (if job.announce then 1 else 0)
  {
    var p := Prologue(job, o.savedAt);
    var s := Supervise(job, o.launch);
    assert Say(job.failed) !in p;
    CountAppend(p, s, Say(job.failed));
    CountAppend(p + s, Epilogue, Say(job.failed));
    CountAppend(Announce(job, job.failed), [ErrorLog("AutoRun Failure")], Say(job.failed));
  }

  /** An unchecked launch exception still resumes saving and releases the lock
      (the `finally` block), but nothing reports it: no outcome announcement
      and no error-log entry. */
  lemma CrashReleasesSilently(job: Job, lastRun: int, o: Oracle)
    requires !o.acquireInterrupted && o.launch == LaunchCrashes
    requires DistinctMessages(job)
    ensures var c := RunCycle(job, lastRun, o);
      && c.outcome == Crashed
      && c.trace == Prologue(job, o.savedAt) + [SaveOn, ReleaseSaveLock]
      && Say(job.failed) !in c.trace && Say(job.complete) !in c.trace
      && (forall ctx :: ErrorLog(ctx) !in c.trace)
  {
  }

  /** A negative exit code is reported as a failure; any other exit code,
      nonzero included, as completion. */
  lemma ExitCodeClassified(job: Job, lastRun: int, o: Oracle)
    requires !o.acquireInterrupted && o.launch.Launched?
    requires DistinctMessages(job)
    ensures var c := RunCycle(job, lastRun, o);
      && c.outcome == Exited(o.launch.exitCode)
      && (o.launch.exitCode < 0 ==> Say(job.complete) !in c.trace)
      && (o.launch.exitCode >= 0 ==> Say(job.failed) !in c.trace)
      && (job.announce ==> Say(ResultMessage(job, o.launch.exitCode)) in c.trace)
  {
    var p := Prologue(job, o.savedAt);
    var w := AwaitExit(o.launch.interrupts);
    if job.announce {
      assert RunCycle(job, lastRun, o).trace[|p| + |w|] == Say(ResultMessage(job, o.launch.exitCode));
    }
  }

  /** A process that ran, whatever its exit code, is never logged as an error. */
  lemma ExitNotLogged(job: Job, lastRun: int, o: Oracle)
    requires !o.acquireInterrupted && o.launch.Launched?
    ensures forall ctx :: ErrorLog(ctx) !in RunCycle(job, lastRun, o).trace
  {
  }

  /** The process is destroyed once per interruption that observed a stop,
      and never otherwise. */
  lemma DestroyOnlyWhenStopped(job: Job, lastRun: int, o: Oracle)
    requires !o.acquireInterrupted && o.launch.Launched?
    ensures Count(RunCycle(job, lastRun, o).trace, Destroy) == Count(o.launch.interrupts, false)
  {
    var p := Prologue(job, o.savedAt);
    var w := AwaitExit(o.launch.interrupts);
    var m := Announce(job, ResultMessage(job, o.launch.exitCode));
    assert RunCycle(job, lastRun, o).trace == p + w + (m + Epilogue);
    assert Destroy !in p && Destroy !in m + Epilogue;
    CountAppend(p, w, Destroy);
    CountAppend(p + w, m + Epilogue, Destroy);
  }

  /** With announcements disabled the cycle says nothing at all. */
  lemma SilentWithoutAnnounce(job: Job, lastRun: int, o: Oracle)
    requires !job.announce
    ensures forall e :: e in RunCycle(job, lastRun, o).trace ==> !e.Say?
  {
  }
}

=== FILE: mysql_connection.dfy ===
/** `MySQLConnection.newConnection`: load the driver, read the four MySQL
    properties, validate them and choose the JDBC URL. The attempt to connect
    to that URL is an input (`connect`). */
module MySqlConnection {
  import opened Outcomes
  import opened DatabaseErrors

  const Name: string := "mysql"
  const DriverClass: string := "com.mysql.jdbc.Driver"
  const DefaultHost: string := "localhost"
  const Scheme: string := "jdbc:mysql://"

  const MissingDatabase: DbError := Configuration("Missing MySQL database name")

  /** A configuration lookup: an absent key reads as `null`. */
  function Lookup(props: map<string, string>, key: string): Option<string> {
    if key in props then Some(props[key]) else None
  }

  /** How `String.format("%s", v)` renders a possibly-null string. */
  function Render(v: Option<string>): string {
    match v
    case None => "null"
    case Some(s) => s
  }

  /** The query string chosen from the credentials that are present. */
  function Credentials(user: Option<string>, password: Option<string>): string {
    if user.None? && password.None? then ""
    else if password.None? then "?user=" + Render(user)
    else "?user=" + Render(user) + "&password=" + Render(password)
  }

  /** Configuration validation and URL selection. */
  function ConnectionUrl(props: map<string, string>): (r: Result<string, DbError>)
    ensures "dbMySQLDatabase" !in props <==> r == Failure(MissingDatabase)
    ensures r.Success? ==>
      var host := if "dbMySQLHostname" in props then props["dbMySQLHostname"] else DefaultHost;
      Scheme + host + "/" + props["dbMySQLDatabase"] <= r.value
  {
    var host := Lookup(props, "dbMySQLHostname");
    var name := Lookup(props, "dbMySQLDatabase");
    var user := Lookup(props, "dbMySQLUsername");
    var password := Lookup(props, "dbMySQLPassword");
    var host' := if host.None? then DefaultHost else host.value;
    if name.None? then Failure(MissingDatabase)
    else
      var base := Scheme + host' + "/" + name.value;
      var url := base + Credentials(user, password);
      assert url[..|base|] == base;
      Success(url)
  }

  /** `newConnection(server)`: the driver is loaded before any property is
      read, and a missing database name fails before any connection attempt. */
  function NewConnection<H>(driverLoads: bool, props: map<string, string>,
                            connect: string -> Result<H, DbError>): (r: Result<H, DbError>)
    ensures !driverLoads ==> r == Failure(DriverMissing(DriverClass))
    ensures driverLoads && "dbMySQLDatabase" !in props ==> r == Failure(MissingDatabase)
    ensures driverLoads && ConnectionUrl(props).Success? ==> r == connect(ConnectionUrl(props).value)
  {
    if !driverLoads then Failure(DriverMissing(DriverClass))
    else match ConnectionUrl(props)
      case Failure(e) => Failure(e)
      case Success(url) => connect(url)
  }

  /** The part of the URL before the query string, with the host defaulted. */
  function Base(props: map<string, string>): string
    requires "dbMySQLDatabase" in props
  {
    Scheme + (if "dbMySQLHostname" in props then props["dbMySQLHostname"] else DefaultHost)
      + "/" + props["dbMySQLDatabase"]
  }

  /** The successful URL is the base followed by the credentials present. */
  lemma UrlSplit(props: map<string, string>)
    requires "dbMySQLDatabase" in props
    ensures ConnectionUrl(props)
      == Success(Base(props) + Credentials(Lookup(props, "dbMySQLUsername"), Lookup(props, "dbMySQLPassword")))
  {
  }

  lemma UrlWithoutCredentials(props: map<string, string>)
    requires "dbMySQLDatabase" in props
    requires "dbMySQLUsername" !in props && "dbMySQLPassword" !in props
    ensures ConnectionUrl(props) == Success(Base(props))
  {
    UrlSplit(props);
    assert Base(props) + "" == Base(props);
  }

  lemma UrlWithUserOnly(props: map<string, string>)
    requires "dbMySQLDatabase" in props
    requires "dbMySQLUsername" in props && "dbMySQLPassword" !in props
    ensures ConnectionUrl(props) == Success(Base(props) + "?user=" + props["dbMySQLUsername"])
  {
    UrlSplit(props);
    var u := props["dbMySQLUsername"];
    assert Base(props) + ("?user=" + u) == Base(props) + "?user=" + u;
  }

  lemma UrlWithUserAndPassword(props: map<string, string>)
    requires "dbMySQLDatabase" in props
    requires "dbMySQLUsername" in props && "dbMySQLPassword" in props
    ensures ConnectionUrl(props)
      == Success(Base(props) + "?user=" + props["dbMySQLUsername"] + "&password=" + props["dbMySQLPassword"])
  {
    UrlSplit(props);
    var u := props["dbMySQLUsername"];
    var w := props["dbMySQLPassword"];
    assert Base(props) + ("?user=" + u + "&password=" + w) == Base(props) + "?user=" + u + "&password=" + w;
  }

  /** A password without a user name renders the user as the literal "null". */
  lemma UrlWithPasswordOnly(props: map<string, string>)
    requires "dbMySQLDatabase" in props
    requires "dbMySQLUsername" !in props && "dbMySQLPassword" in props
    ensures ConnectionUrl(props) == Success(Base(props) + "?user=null&password=" + props["dbMySQLPassword"])
  {
    UrlSplit(props);
    var w := props["dbMySQLPassword"];
    assert Base(props) + ("?user=" + "null" + "&password=" + w) == Base(props) + "?user=null&password=" + w;
  }

  /** With no '?' in host and database name, the URL carries a query string
      exactly when a user name or a password is configured. */
  lemma QueryIffCredentials(props: map<string, string>)
    requires "dbMySQLDatabase" in props && '?' !in props["dbMySQLDatabase"]
    requires "dbMySQLHostname" in props ==> '?' !in props["dbMySQLHostname"]
    ensures ConnectionUrl(props).Success?
    ensures '?' in ConnectionUrl(props).value <==> "dbMySQLUsername" in props || "dbMySQLPassword" in props
  {
    var user := Lookup(props, "dbMySQLUsername");
    var password := Lookup(props, "dbMySQLPassword");
    var q := Credentials(user, password);
    if user.Some? || password.Some? {
      assert q[0] == '?';
    }
  }
}

/** The backends known to the registry: one variant per concrete
    `DatabaseConnection` subtype, in place of the reflective scan. */
module Backends {
  import opened Outcomes
  import opened DatabaseErrors
  import MySqlConnection
  import M = DatabaseConnectionManager

  datatype Backend = MySql

  function NameOf(b: Backend): string {
    match b
    case MySql => MySqlConnection.Name
  }

  /** The scan result: the subtypes of `DatabaseConnection` on the class
      path, of which the MySQL connector is the only one. */
  function Scanned(mysqlConstructs: bool): seq<M.Candidate<Backend>> {
    [M.Candidate(false, if mysqlConstructs then Some(MySql) else None)]
  }

  /** With `dbConnector` set to "mysql", `getConnector()` is MySQL's
      `newConnection`; any other name is a configuration error. */
  lemma MySqlSelected<H>(driverLoads: bool, props: map<string, string>, connect: string -> Result<H, DbError>)
    requires "dbConnector" in props
    ensures var mgr := M.Manager(M.Reload(Scanned(true), NameOf));
      var r := M.GetConnector(mgr, props, (b: Backend) => MySqlConnection.NewConnection(driverLoads, props, connect));
      && (props["dbConnector"] == "mysql" ==> r == MySqlConnection.NewConnection(driverLoads, props, connect))
      && (props["dbConnector"] != "mysql" ==> r == Failure(M.UnknownConnector(props["dbConnector"])))
  {
    var cands := Scanned(true);
    M.ReloadSpec(cands, NameOf);
    if props["dbConnector"] == "mysql" {
      assert M.Supplies(cands[0], NameOf, "mysql");
    } else {
      assert !M.Supplies(cands[0], NameOf, props["dbConnector"]);
    }
  }

  /** If the MySQL connector cannot be constructed, the registry is empty. */
  lemma NothingRegisteredWhenConstructionFails()
    ensures M.Reload(Scanned(false), NameOf) == map[]
  {
    assert Scanned(false)[..0] == [];
  }
}

=== FILE: outcomes.dfy ===
/** Failure-carrying wrappers used throughout the model in place of Java's
    `null` references and checked exceptions. */
module Outcomes {

  /** A value that may be absent: Java's nullable reference. */
  datatype Option<+T> = None | Some(value: T)

  /** The outcome of an operation that may throw: `Failure` carries the exception. */
  datatype Result<+T, +E> = Success(value: T) | Failure(error: E)
}

/** The three exception kinds of the database layer. */
module DatabaseErrors {

  datatype DbError =
    | DriverMissing(driver: string)    // ClassNotFoundException from loading a JDBC driver
    | Configuration(message: string)   // DatabaseConfigurationException
    | Sql(message: string)             // SQLException from the driver or the connection wrapper
}

=== FILE: player_tracker.dfy ===
/** `PlayerTracker`: a hand-rolled periodic job that replaces the
    `player_tracker` table with one row per online player. The database is an
    effect trace; the outcome of `getConnector()`, the SQL failures and the
    clock are inputs. */
module PlayerTracker {
  import opened Outcomes
  import opened DatabaseErrors
  import opened Traces

  const ClearQuery: string := "TRUNCATE player_tracker"
  const InsertQuery: string := "INSERT INTO player_tracker VALUES (?, ?, ?, ?, ?, ?, ?)"

  /** A world dimension, identified by its index. `Coordinate.Dimension` is not
      part of this model; only the distinctness of the two constants matters. */
  datatype Dimension = Dimension(index: int)

  const Earth: Dimension := Dimension(0)
  const Nether: Dimension := Dimension(-1)

  datatype Player = Player(name: string, group: string, dimension: Dimension, x: int, y: int, z: int, hidden: bool)

  /** One `player_tracker` row, in column order. */
  datatype Row = Row(name: string, group: string, dimension: int, x: int, y: int, z: int, hidden: bool)

  /** Vehicles can report a height below the floor: it is recorded as zero. */
  function ClampY(y: int): (r: int)
    ensures r >= 0
    ensures y >= 0 ==> r == y
    ensures y < 0 ==> r == 0
  {
    if y < 0 then 0 else y
  }

  /** The skip test of the insert loop: a dimension equal to both EARTH and NETHER. */
  predicate Skipped(p: Player) {
    p.dimension == Earth && p.dimension == Nether
  }

  lemma NeverSkipped(p: Player)
    ensures !Skipped(p)
  {
  }

  function RowOf(p: Player): (r: Row)
    ensures r.y == ClampY(p.y)
    ensures r == Row(p.name, p.group, p.dimension.index, p.x, r.y, p.z, p.hidden)
  {
    Row(p.name, p.group, p.dimension.index, p.x, ClampY(p.y), p.z, p.hidden)
  }

  /** The rows the loop inserts, in list order, honouring the skip test. */
  function Rows(players: seq<Player>): seq<Row>
    decreases |players|
  {
    if |players| == 0 then []
    else (if Skipped(players[0]) then [] else [RowOf(players[0])]) + Rows(players[1..])
  }

  /** Because the skip test never holds, there is exactly one row per player, in list order. */
  lemma {:induction false} OneRowPerPlayer(players: seq<Player>)
    ensures |Rows(players)| == |players|
    ensures forall i :: 0 <= i < |players| ==> Rows(players)[i] == RowOf(players[i])
    decreases |players|
  {
    if |players| > 0 {
      NeverSkipped(players[0]);
      OneRowPerPlayer(players[1..]);
    }
  }

  /** The database steps of a cycle that can throw an `SQLException`:
      preparing and executing the truncate, preparing the insert statement
      (done even when no player is online), and executing one insert. */
  datatype SqlStep = Truncate | PrepareInsert | Insert(row: Row)

  datatype Effect =
    | Perform(step: SqlStep)
    | CloseConnection
    | LogError(message: string)

  /** Driver behaviour for one cycle: `failAfter == Some(k)` means the step
      after the first `k` successful ones throws an `SQLException`. */
  datatype SqlOracle = SqlOracle(failAfter: Option<nat>, closeFails: bool)

  const UpdateFailed: string := "Database update failed"
  const CloseFailed: string := "Failed to properly close database connection"

  /** The message logged for an exception escaping the `try` block. */
  function ErrorMessage(e: DbError): string {
    match e
    case DriverMissing(_) => "Failed to load database driver"
    case Configuration(_) => "Database configuration invalid or missing"
    case Sql(_) => UpdateFailed
  }

  function Inserts(rows: seq<Row>): (r: seq<SqlStep>)
    ensures |r| == |rows|
    ensures forall i :: 0 <= i < |rows| ==> r[i] == Insert(rows[i])
  {
    seq(|rows|, i requires 0 <= i < |rows| => Insert(rows[i]))
  }

  function Performs(steps: seq<SqlStep>): (r: seq<Effect>)
    ensures |r| == |steps|
    ensures forall i :: 0 <= i < |steps| ==> r[i] == Perform(steps[i])
  {
    seq(|steps|, i requires 0 <= i < |steps| => Perform(steps[i]))
  }

  /** The steps of a complete cycle: the truncate, the insert statement's
      preparation, then one insert per row. */
  function Steps(players: seq<Player>): seq<SqlStep> {
    [Truncate, PrepareInsert] + Inserts(Rows(players))
  }

  /** The effects up to the `finally` block of a cycle that obtained a connection. */
  function Updates(players: seq<Player>, sql: SqlOracle): seq<Effect> {
    var steps := Steps(players);
    match sql.failAfter
    case Some(k) =>
      if k < |steps| then Performs(steps[..k]) + [LogError(UpdateFailed)]
      else Performs(steps)
    case None => Performs(steps)
  }

  /** One triggered cycle of the `Tracker` thread: a failed lookup only logs;
      otherwise the update runs until a step throws, the connection is closed
      in the `finally` block, and a failing close is logged last. */
  function Cycle<H>(players: seq<Player>, connect: Result<H, DbError>, sql: SqlOracle): (r: seq<Effect>)
    ensures connect.Failure? ==> r == [LogError(ErrorMessage(connect.error))]
    ensures connect.Success? ==>
      && CloseConnection in r
      && r[|r| - 1] == (if sql.closeFails then LogError(CloseFailed) else CloseConnection)
      && (LogError(UpdateFailed) in r <==> sql.failAfter.Some? && sql.failAfter.value < |players| + 2)
  {
    match connect
    case Failure(e) => [LogError(ErrorMessage(e))]
    case Success(_) =>
      OneRowPerPlayer(players);
      Updates(players, sql) + [CloseConnection] + (if sql.closeFails then [LogError(CloseFailed)] else [])
  }

  /** If a connection was obtained it is closed exactly once, on every path;
      otherwise nothing is closed and only the lookup error is logged. */
  lemma {:induction false} ConnectionClosedOnce<H>(players: seq<Player>, connect: Result<H, DbError>, sql: SqlOracle)
    ensures connect.Success? ==> Count(Cycle(players, connect, sql), CloseConnection) == 1
    ensures connect.Failure? ==> Cycle(players, connect, sql) == [LogError(ErrorMessage(connect.error))]
  {
    if connect.Success? {
      var u := Updates(players, sql);
      var tail := if sql.closeFails then [LogError(CloseFailed)] else [];
      assert CloseConnection !in u;
      assert CloseConnection !in tail;
      CountAppend(u, [CloseConnection], CloseConnection);
      CountAppend(u + [CloseConnection], tail, CloseConnection);
    }
  }

  /** The truncate is the first step and the insert preparation the second:
      no insert is executed before either. */
  lemma TruncateFirst<H>(players: seq<Player>, connect: Result<H, DbError>, sql: SqlOracle, j: nat)
    requires j < |Cycle(players, connect, sql)|
    requires Cycle(players, connect, sql)[j].Perform?
    ensures Cycle(players, connect, sql)[0] == Perform(Truncate)
    ensures Cycle(players, connect, sql)[j].step.Insert? ==> j > 1 && Cycle(players, connect, sql)[1] == Perform(PrepareInsert)
  {
    var steps := Steps(players);
    assert steps[0] == Truncate && steps[1] == PrepareInsert;
  }

  /** A cycle without failures: the truncate, the insert preparation, one
      insert per player in list order, and the close. */
  lemma CompleteCycle<H>(players: seq<Player>, handle: H)
    ensures var t := Cycle(players, Success(handle), SqlOracle(None, false));
      && |t| == |players| + 3
      && t[0] == Perform(Truncate)
      && t[1] == Perform(PrepareInsert)
      && (forall i :: 0 <= i < |players| ==> t[i + 2] == Perform(Insert(RowOf(players[i]))))
      && t[|t| - 1] == CloseConnection
  {
    OneRowPerPlayer(players);
  }

  /** Zero players give the truncate and the preparation, and no insert. */
  lemma EmptyPlayerList<H>(handle: H)
    ensures Cycle([], Success(handle), SqlOracle(None, false)) == [Perform(Truncate), Perform(PrepareInsert), CloseConnection]
  {
    CompleteCycle([], handle);
  }

  /** The insert statement is prepared even with no player online, and a
      failing preparation is logged as an update failure after the truncate. */
  lemma InsertPrepareFailure<H>(handle: H)
    ensures Cycle([], Success(handle), SqlOracle(Some(1), false))
         == [Perform(Truncate), LogError(UpdateFailed), CloseConnection]
  {
    assert Steps([])[..1] == [Truncate];
  }

  /** Java `int` arithmetic: two's complement wrap-around to 32 bits. */
  function Int32(x: int): (r: int)
    ensures -0x8000_0000 <= r < 0x8000_0000
    ensures (r - x) % 0x1_0000_0000 == 0
  {
    (x + 0x8000_0000) % 0x1_0000_0000 - 0x8000_0000
  }

  datatype Config = Config(playerTracker: bool, playerTrackerSecs: int)

  /** `needsUpdate()`: `1000 * playerTrackerSecs` is computed in 32-bit `int`. */
  function NeedsUpdate(cfg: Config, lastUpdate: int, now: int): (due: bool)
    ensures due ==> cfg.playerTracker
    ensures cfg.playerTracker ==> (due <==> now - lastUpdate > Int32(1000 * cfg.playerTrackerSecs))
  {
    cfg.playerTracker && now - Int32(1000 * cfg.playerTrackerSecs) > lastUpdate
  }

  /** Within the range where the product fits in an `int`, the tracker is due
      when strictly more than the period has elapsed since the last update. */
  lemma NeedsUpdateIff(cfg: Config, lastUpdate: int, now: int)
    requires -2147483 <= cfg.playerTrackerSecs <= 2147483
    ensures NeedsUpdate(cfg, lastUpdate, now)
        <==> cfg.playerTracker && now - 1000 * cfg.playerTrackerSecs > lastUpdate
  {
    var x := 1000 * cfg.playerTrackerSecs;
    assert 0 <= x + 0x8000_0000 < 0x1_0000_0000;
    assert Int32(x) == x;
  }

  /** Past that range the product wraps negative: a period of 2147484 seconds
      makes the tracker due on every poll that is not earlier than the last update. */
  lemma LongPeriodWraps(cfg: Config, lastUpdate: int, now: int)
    requires cfg.playerTracker && cfg.playerTrackerSecs == 2147484
    requires now >= lastUpdate
    ensures NeedsUpdate(cfg, lastUpdate, now)
  {
    assert Int32(2147484000) == -2147483296;
  }

  datatype State = State(lastUpdate: int, running: bool)

  /** A freshly constructed tracker: the first enabled poll is due at once. */
  function New(): (s: State)
    ensures s.lastUpdate == 0 && s.running
  {
    State(0, true)
  }

  function Stop(s: State): (r: State)
    ensures !r.running && r.lastUpdate == s.lastUpdate
  {
    s.(running := false)
  }

  datatype Iteration = Iteration(state: State, trace: seq<Effect>)

  /** One pass of the `Tracker` loop: `finished` is the clock after the cycle. */
  function Iterate<H>(s: State, cfg: Config, now: int, players: seq<Player>,
                      connect: Result<H, DbError>, sql: SqlOracle, finished: int): (it: Iteration)
    requires s.running
    ensures it.state.running
    ensures !NeedsUpdate(cfg, s.lastUpdate, now) ==> it == Iteration(s, [])
    ensures NeedsUpdate(cfg, s.lastUpdate, now) ==> it.state.lastUpdate == finished && it.trace != []
    ensures NeedsUpdate(cfg, s.lastUpdate, now) ==> it.trace == Cycle(players, connect, sql)
  {
    if NeedsUpdate(cfg, s.lastUpdate, now) then
      ConnectionClosedOnce(players, connect, sql);
      Iteration(s.(lastUpdate := finished), Cycle(players, connect, sql))
    else Iteration(s, [])
  }

  /** A due poll with a connection closes it exactly once, last unless the
      close itself fails, and records the post-cycle time even when the
      update failed. */
  lemma DueUpdateClosesOnce<H>(s: State, cfg: Config, now: int, players: seq<Player>,
                               handle: H, sql: SqlOracle, finished: int)
    requires s.running && NeedsUpdate(cfg, s.lastUpdate, now)
    ensures var it := Iterate(s, cfg, now, players, Success(handle), sql, finished);
      && Count(it.trace, CloseConnection) == 1
      && (!sql.closeFails ==> it.trace[|it.trace| - 1] == CloseConnection)
      && it.state == State(finished, true)
  {
    ConnectionClosedOnce(players, Success(handle), sql);
  }
}

=== FILE: traces.dfy ===
/** Effect traces: counting occurrences and stating the relative order of events. */
module Traces {

  /** Number of occurrences of `x` in `s`. */
  function Count<T(==)>(s: seq<T>, x: T): (n: nat)
    ensures n <= |s|
    ensures n == 0 <==> x !in s
  {
    if |s| == 0 then 0 else (if s[0] == x then 1 else 0) + Count(s[1..], x)
  }

  lemma {:induction false} CountAppend<T>(a: seq<T>, b: seq<T>, x: T)
    ensures Count(a + b, x) == Count(a, x) + Count(b, x)
  {
    if |a| == 0 {
      assert a + b == b;
    } else {
      assert (a + b)[1..] == a[1..] + b;
      CountAppend(a[1..], b, x);
    }
  }

  /** Some occurrence of `x` comes strictly before some occurrence of `y`. */
  ghost predicate Before<T>(s: seq<T>, x: T, y: T) {
    exists i, j :: 0 <= i < j < |s| && s[i] == x && s[j] == y
  }
}
